=== FILE: README.md ===
# UnityHorror player core, modelled in Dafny

A model of the gameplay core of a small first-person horror game written for
Unity in C#:

- the player controller `Movement`: its stamina-gated sprint state machine
  (Ready, Sprinting, Blocked) with the `maxStam` / `exitMaxStam` animator
  triggers, the speed multiplier, the jump rule of the per-frame `Update`,
  the horizontal velocity write of `FixedUpdate`, and the stamina feedback
  (normalised stamina, vignette intensity, retro vertical resolution);
- the two door interactables: the current `Door` (guarded, tweens to an
  absolute rotation, plays a sound at a random pitch) and the older `Door`
  of `Object.cs` (unguarded, relative quarter turns);
- the `InteractionController` that highlights and targets what the crosshair
  hits, shows its prompt and dispatches the F key to it;
- one pass of the `BallActivityManager` distance culling, its tag filter at
  start and `RegisterBall`.

Everything is immutable datatypes and pure functions, with one loop
(`BallActivity.CheckBalls`). Engine floats are `real`. Engine queries
(`Physics.CheckSphere`, `Physics.Raycast`, distances), the result of
`Mathf.Sqrt` for the jump, `Random.Range`'s draw and the completion of a
DOTween tween are inputs or explicit events.

Modules: `Options` (the optional value), `Numeric` (clamp and interpolation
bounds), `Sprint` (one event of the sprint machine), `SprintRuns` (the
machine over arbitrary event sequences, with timestamps on the triggers),
`Feedback` (stamina to post-processing), `Locomotion` (jump, velocity write,
one whole `FixedUpdate`), `Door`, `LegacyDoor`, `Interaction`,
`BallActivity`, and `Scene` (the controller wired to a door).

## Behaviour worth knowing

- The jump request is consumed at the end of every rendered frame
  (`Update`), whether or not the body was grounded.
- Invalid configuration (negative rates) is not rejected anywhere; the
  range invariant is proved under non-negative capacity and rates
  (`Sprint.Config.Valid`).
- With a restart threshold at or below the tolerance (a restart percent of
  0 is inside the inspector's range) a block is never lifted:
  `Sprint.BlockedForeverBelowTolerance`.

## Model

| member | source | states |
|---|---|---|
| `Sprint.Initial` | Assets/Scripts/Movement.cs:85 | Stamina starts at the capacity with nothing sprinting, held or blocked; the invariant holds and the machine is Ready with stamina left. |
| `Sprint.Press` | Assets/Scripts/Movement.cs:133-149 | A press marks the button held, starts a sprint exactly when not blocked, never changes stamina or the block, and keeps the flags consistent. |
| `Sprint.Release` | Assets/Scripts/Movement.cs:150-159 | A release clears the held flag and stops any sprint, leaving stamina and the block as they were. |
| `Sprint.FixedStep` | Assets/Scripts/Movement.cs:204-236 | One step keeps stamina in range and the flags consistent; a sprint that does not run out loses exactly drain times step and keeps running; without a sprint stamina gains regen times step, capped at the capacity, on either side of the restart threshold; exhaustion pins stamina at 0, stops and blocks the sprint; `maxStam` fires iff a positive stamina is driven to 0; the block lifts iff the stamina crosses the restart threshold upwards, and `exitMaxStam` fires on exactly that step; a step never starts a sprint. |
| `Sprint.BlockedForeverBelowTolerance` | Assets/Scripts/Movement.cs:229-233 | With a restart threshold not above the tolerance, a blocked machine stays blocked and never fires `exitMaxStam`. |
| `Sprint.SpeedMultiplier` | Assets/Scripts/Movement.cs:247-249 | The multiplier is the sprint one while sprinting, the slow one while blocked, 1 when ready. |
| `SprintRuns.RunAppend` | Assets/Scripts/Movement.cs:133-236 | Running two event sequences one after the other gives the run of their concatenation: state, clock and triggers in order. |
| `SprintRuns.RunKeepsInvariant` | Assets/Scripts/Movement.cs:133-236 | Any sequence of presses, releases and non-negative steps keeps stamina in range and blocked-implies-not-sprinting. |
| `SprintRuns.StaminaStaysInRange` | Assets/Scripts/Movement.cs:205-227 | From the state after `Awake`, stamina stays in `[0, staminaMax]` and a blocked sprint never runs, for every event sequence. |
| `SprintRuns.StepKeepsAnnounced` | Assets/Scripts/Movement.cs:208-227 | Outside the Blocked phase some stamina is always left, so every exhaustion starts above zero. |
| `SprintRuns.ApplyEdges` | Assets/Scripts/Movement.cs:217-234 | An event either emits nothing and keeps the block flag, or flips the flag and emits the one trigger naming that edge. |
| `SprintRuns.RunTriggersAlternate` | Assets/Scripts/Movement.cs:217-234 | Over any run, `maxStam` and `exitMaxStam` strictly alternate, each marking one edge of the Blocked phase, and their count's parity gives the final block flag. |
| `SprintRuns.DrainStep` | Assets/Scripts/Movement.cs:208-210 | A sprint step that does not run out only lowers stamina by drain times step. |
| `SprintRuns.RegenStep` | Assets/Scripts/Movement.cs:223-227 | A regeneration step below capacity and threshold only raises stamina by regen times step. |
| `SprintRuns.DrainTicks` | Assets/Scripts/Movement.cs:208-210 | `n` sprint steps that do not run out lower stamina by `n` drains and emit nothing. |
| `SprintRuns.RegenTicks` | Assets/Scripts/Movement.cs:223-227 | `n` regeneration steps below capacity and threshold raise stamina by `n` regens and emit nothing. |
| `SprintRuns.DefaultConfig` | Assets/Scripts/Movement.cs:19-29 | The inspector defaults allow both exhaustion and recovery. |
| `SprintRuns.ScenarioExhaust` | Assets/Scripts/Movement.cs:205-221 | With the defaults, ten half-second sprint steps from full exhaust the stamina at 5 s with one `maxStam`. |
| `SprintRuns.ScenarioRecover` | Assets/Scripts/Movement.cs:223-236 | With the defaults, five half-second steps from empty lift the block at 7.5 s with one `exitMaxStam`, at stamina 2.5. |
| `SprintRuns.ScenarioHold` | Assets/Scripts/Movement.cs:205-236 | With the defaults, fifteen half-second steps of a held sprint give `maxStam` at 5 s then `exitMaxStam` at 7.5 s and end unblocked but not sprinting. |
| `SprintRuns.ExhaustAndRecoverScenario` | Assets/Scripts/Movement.cs:205-236 | Holding sprint from the start: `maxStam` at 5 s, `exitMaxStam` at 7.5 s, and the sprint does not resume although the button is held. |
| `Numeric.Clamp01` | Assets/Scripts/Movement.cs:266 | The result lies in `[0, 1]` and equals the input when the input does. |
| `Feedback.Stamina01` | Assets/Scripts/Movement.cs:266 | The share lies in `[0, 1]`, is 0 without capacity, and times the capacity gives back any in-range stamina. |
| `Feedback.Stamina01Monotone` | Assets/Scripts/Movement.cs:266 | More stamina never gives a smaller share. |
| `Feedback.Lerp` | Assets/Scripts/Movement.cs:240 | The interpolation is `a` at or below 0, `b` at or above 1, and `(1 - t) * a + t * b` for `t` in `[0, 1]`; it always lies between `a` and `b`. |
| `Feedback.LerpMonotone` | Assets/Scripts/Movement.cs:240 | For `a <= b`, a larger parameter never gives a smaller value. |
| `Feedback.ByStamina` | Assets/Scripts/Movement.cs:239-245 | The post-processing mapping is the full value at full stamina, the empty value at none or without capacity, and for in-range stamina the two weighed by `stamina / staminaMax` and its complement. |
| `Feedback.ByStaminaMonotone` | Assets/Scripts/Movement.cs:239-245 | With the empty value at most the full one, more stamina never lowers the mapped value. |
| `Feedback.Vignette` | Assets/Scripts/Movement.cs:239-240 | The vignette is `vignetteFull` at full stamina, `vignetteEmpty` at none or without capacity, and for in-range stamina `(stamina / staminaMax) * vignetteFull + (1 - stamina / staminaMax) * vignetteEmpty`. |
| `Feedback.VignetteMonotone` | Assets/Scripts/Movement.cs:239-240 | With a darker empty vignette, more stamina never darkens it. |
| `Feedback.RoundToInt` | Assets/Scripts/Movement.cs:244 | The result is within one half of the input, and on a tie it is even. |
| `Feedback.RoundToIntUnique` | Assets/Scripts/Movement.cs:244 | Those two facts determine the rounding. |
| `Feedback.RoundToIntMonotone` | Assets/Scripts/Movement.cs:244 | Rounding preserves order. |
| `Feedback.VerticalResolution` | Assets/Scripts/Movement.cs:241-245 | The resolution is the rounded full value at full stamina, the rounded empty value at none, for in-range stamina the rounded weighing of the two by the stamina's share, and always between the two rounded bounds. |
| `Feedback.VerticalResolutionMonotone` | Assets/Scripts/Movement.cs:241-245 | With a coarser empty resolution, more stamina never lowers it. |
| `Locomotion.Awake` | Assets/Scripts/Movement.cs:80-85 | The controller starts with full stamina, Ready, nothing held and no jump pending. |
| `Locomotion.JumpPerformed` | Assets/Scripts/Movement.cs:128-129 | The jump action latches a request and changes nothing else. |
| `Locomotion.Update` | Assets/Scripts/Movement.cs:177-183 | The request is always consumed; only a grounded request sets the vertical speed; when the launch speed is the square root `Mathf.Sqrt` returns it is non-negative and satisfies `v * v / (-2 * Physics.gravity.y) == jumpHeight`; horizontal speed is untouched. |
| `Locomotion.JumpHonouredOnce` | Assets/Scripts/Movement.cs:177-183 | A second frame after the one that consumed a request changes nothing: a request is honoured at most once. |
| `Locomotion.WriteHorizontal` | Assets/Scripts/Movement.cs:252 | The write replaces the horizontal components and keeps the vertical one. |
| `Locomotion.Wish` | Assets/Scripts/Movement.cs:251 | In a level frame the wished velocity has no vertical component. |
| `Locomotion.WishSpeed` | Assets/Scripts/Movement.cs:251 | In a level frame the wished velocity is horizontal and its squared length is the move vector's times the squared speed factor. |
| `Locomotion.FixedTick` | Assets/Scripts/Movement.cs:186-253 | A whole step: grounded from the contact query, animation flags exclusive and from the pre-step sprint state, the sprint state advanced by the sprint machine's step and its triggers sent to the animator when there is one, post-processing from the post-step stamina, horizontal velocity from the phase the step ends in, vertical velocity and the jump request untouched, sinks written only when present. |
| `Locomotion.AirborneJumpIsDropped` | Assets/Scripts/Movement.cs:178-183 | A request made in the air is discarded by the next frame and does not change the velocity. |
| `Locomotion.DriveKeepsInv` | Assets/Scripts/Movement.cs:116-260 | Under any interleaving of jump and sprint callbacks, rendered frames and non-negative physics steps, stamina stays in range and no sprint runs while blocked or without the button held. |
| `Door.Initial` | Assets/Scripts/Door.cs:29-42 | After `Awake` and `Start` the door is unlocked, at its closed rotation, with no tween; `isOpen` and the collider's trigger flag keep their serialized values. |
| `Door.RandomRange` | Assets/Scripts/Door.cs:85-89 | A drawn pitch lies between the range's two bounds. |
| `Door.PlayOneShotVar` | Assets/Scripts/Door.cs:79-94 | A clip plays iff there is a source and a clip, at the given volume, at a pitch between the range's bounds (in either order) or the source's own; the source's pitch is the same afterwards. |
| `Door.Interact` | Assets/Scripts/Door.cs:44-77 | While locked nothing changes and nothing sounds; otherwise the door locks, becomes a trigger, targets the closed rotation if open and the open one if closed, keeps `isOpen`, and plays the opening sound iff it was closed; with `randomizePitch` the pitch lies within that swing's pitch range (`openPitchRange` opening, `closePitchRange` closing), without it the sound plays at the source's pitch. |
| `Door.Complete` | Assets/Scripts/Door.cs:59-64 | Completion puts the door at the target, flips `isOpen`, makes it solid and unlocks it. |
| `Door.RunKeepsSettled` | Assets/Scripts/Door.cs:44-64 | Under any sequence of presses and completions the lock, the trigger flag, the rotation and `isOpen` stay in step. |
| `Door.InitialClosedIsSettled` | Assets/Scripts/Door.cs:29-42 | A door starting closed and solid starts in step. |
| `Door.TwoCyclesRestore` | Assets/Scripts/Door.cs:40-64 | Two completed interactions restore the door exactly, and the first one flips `isOpen`. |
| `Door.RepeatedInteractIgnored` | Assets/Scripts/Door.cs:46-64 | A second press during the tween changes nothing; the door ends open, a quarter turn round, solid and unlocked. |
| `LegacyDoor.Initial` | Assets/Scripts/Object.cs:26-29 | After `Awake` the door is unlocked with nothing pending. |
| `LegacyDoor.Interact` | Assets/Scripts/Object.cs:37-59 | A press is always accepted: it locks, queues the swing `isOpen` selects, makes a closed door a trigger at once and leaves an open door's trigger flag alone. |
| `LegacyDoor.Complete` | Assets/Scripts/Object.cs:43-58 | The oldest swing completes: its quarter turn is added, `isOpen` flips, the lock is released, and only a closing swing makes the door solid. |
| `LegacyDoor.GuardedInteract` | Assets/Scripts/Object.cs:37-39 | The corrected press handler ignores presses while locked. |
| `LegacyDoor.GuardedRunKeepsSettled` | Assets/Scripts/Object.cs:37-58 | With the guard, any sequence of presses and completions keeps lock, trigger, rotation and `isOpen` in step. |
| `LegacyDoor.OpenThenCloseRestores` | Assets/Scripts/Object.cs:40-58 | Opening then closing, each completed, gives net yaw 0, closed, solid and unlocked. |
| `LegacyDoor.ReentryDesync` | Assets/Scripts/Object.cs:37-48 | Two presses before the first swing completes leave a door half a turn round that reports itself closed and stays a trigger. |
| `LegacyDoor.ReentryGuarded` | Assets/Scripts/Object.cs:37-48 | With the guard, the same presses give one quarter turn and a door in step. |
| `Interaction.Initial` | Assets/Scripts/InteractionController.cs:16-18 | The controller starts with no target, nothing highlighted and no prompt. |
| `Interaction.UpdateCurrentInteractable` | Assets/Scripts/InteractionController.cs:31-72 | A refusing interactable changes nothing; otherwise the target is what was hit, and a newly hit object switches the old outline off and its own on and caches it, while the same object again touches no outline. |
| `Interaction.UpdateInteractionText` | Assets/Scripts/InteractionController.cs:74-85 | Without a text widget nothing happens; otherwise the prompt is the target's message or empty. |
| `Interaction.CheckForInteractionInput` | Assets/Scripts/InteractionController.cs:88-94 | `Interact` is called iff F went down and there is a target, on that target. |
| `Interaction.Frame` | Assets/Scripts/InteractionController.cs:20-27 | Targeting, then prompt, then input: the prompt and the dispatched press both use this frame's target; the highlight after the frame is the one `UpdateCurrentInteractable` leaves; without a widget the prompt text is unchanged. |
| `Interaction.InitialInv` | Assets/Scripts/InteractionController.cs:16-18 | The starting controller highlights exactly its cached outline (none). |
| `Interaction.FrameKeepsInv` | Assets/Scripts/InteractionController.cs:56-69 | The controller only ever has its cached outline switched on, so at most one. |
| `Interaction.Frames` | Assets/Scripts/InteractionController.cs:20-27 | Over a run of frames there are no more calls than frames, and none without a press of F. |
| `Interaction.FramesOne` | Assets/Scripts/InteractionController.cs:20-27 | A run of one frame calls exactly that frame's dispatch, if any. |
| `Interaction.FramesAppend` | Assets/Scripts/InteractionController.cs:20-27 | Runs compose over concatenation: the calls of `a + b` are those of `a` followed by those of `b`, so every call is its own frame's dispatch, in frame order. |
| `Interaction.FramesKeepInv` | Assets/Scripts/InteractionController.cs:56-69 | The same holds over any run of frames. |
| `Interaction.RefusedHitStillDispatches` | Assets/Scripts/InteractionController.cs:44-50 | A hit on a locked interactable keeps the previous target, and F still dispatches to it. |
| `Interaction.DoublePressDispatchesTwice` | Assets/Scripts/InteractionController.cs:44-50 | Pressing F on two frames at an interactable that locks itself after the first dispatches both presses to it. |
| `BallActivity.Cull` | Assets/BallActivityManager.cs:64-76 | In deactivate mode the object is active iff strictly nearer than the distance; otherwise the body is kinematic iff not; the other flag, the tag and the distance are untouched. |
| `BallActivity.CullPass` | Assets/BallActivityManager.cs:54-77 | A pass keeps the list's length and its destroyed entries, changes nothing without a player, and culls every live body as above. |
| `BallActivity.CullPassIdempotent` | Assets/BallActivityManager.cs:67-76 | With the same distances a second pass changes nothing. |
| `BallActivity.CheckBalls` | Assets/BallActivityManager.cs:60-77 | The loop computes the pass, and writes a flag exactly on the entries the pass changes, each once, in list order. |
| `BallActivity.Collect` | Assets/BallActivityManager.cs:40-45 | Start keeps exactly the bodies tagged "Ball", each one found. |
| `BallActivity.CollectCount` | Assets/BallActivityManager.cs:40-45 | Each ball-tagged body is kept as many times as it was found, and nothing else is kept. |
| `BallActivity.CollectAppend` | Assets/BallActivityManager.cs:40-45 | The filter keeps the order it found the bodies in: collecting a concatenation is concatenating the collections. |
| `BallActivity.RegisterBall` | Assets/BallActivityManager.cs:84-89 | The list grows by the body iff there is one tagged "Ball", and stays all balls. |
| `BallActivity.CullPassKeepsAllBalls` | Assets/BallActivityManager.cs:60-77 | Passes never change tags, so the list stays all balls. |
| `Scene.LookFrame` | Assets/Scripts/InteractionController.cs:31-93 | Without F the door is untouched; with F an unlocked door under the crosshair takes the press; a locked one takes it only if it was already the target, since a refusing hit leaves the target as it was. |
| `Scene.DoublePressOnLegacyDoor` | Assets/Scripts/Object.cs:37-48 | Looking at the legacy door and pressing F on two frames before the swing ends drives it out of step; the guarded handler keeps it in step. |

## Left out

- Look smoothing, move smoothing (`Vector2.SmoothDamp`), the move-input normalisation and the camera pitch clamp: the smoothed move vector is an input of `Locomotion.FixedTick`.
- `Physics.CheckSphere` and `Physics.Raycast`: engine calls; their results are inputs.
- The extra gravity of `FixedUpdate` (`(gravityScale - 1) * Physics.gravity` added every step when `gravityScale > 1`): rigid-body integration is not modelled, so the model states the launch speed against `Physics.gravity` alone; with the extra force the apex is `jumpHeight / gravityScale` instead.
- `Locomotion.Update`: takes the launch speed as an input; its contract speaks about it when it is the square root `Mathf.Sqrt` returns, and the NaN `Mathf.Sqrt` gives when gravity points up is not modelled.
- `Feedback.RoundToInt`: exact rounding of reals; float error and the integer range of `Mathf.RoundToInt` are not modelled.
- Input-system subscription, device detection, cursor lock, post-processing lookups, gizmos and logging: wiring.
- `wasFull`, `wasReady` and `usingPad`: never read.
- DOTween easing, durations, `Kill` and intermediate rotations: a tween is its later completion event; the legacy door's concurrent swings each add their quarter turn when they complete.
- `Random.Range`: its draw is a `roll` in `[0, 1]`.
- The `WaitForSeconds` scheduling of the culling coroutine and the player lookup of `Start`: one pass is modelled, with the player's presence as an input.
- Assets/BallSpawner.cs: random spawning, not part of this model.
- Assets/Scripts/Interactable.cs: an interface without behaviour; its three members appear as the `Interactable` record and the hit's lock flag.
- The outlines the doors switch off in their `Start`: the controller's highlighted set starts empty.

## Findings

| source | as written | input that shows it | evidently intended | confidence | as-written member | corrected member |
|---|---|---|---|---|---|---|
| Assets/Scripts/Object.cs:37-48 | `Interact` locks the door and starts a swing without looking at the lock, and the controller keeps a locked door as its target and dispatches F to it | a closed door at rest; press F on two frames less than one swing apart; both swings complete | a press while locked is ignored, as the current door does, so the door ends open by a quarter turn and in step | high; not executed | `LegacyDoor.ReentryDesync` | `LegacyDoor.GuardedInteract` |

=== FILE: ball_activity.dfy ===
/** The distance culling of `BallActivityManager` (Assets/BallActivityManager.cs):
    at start it collects the rigidbodies tagged "Ball", later ones are
    registered one by one, and every `checkInterval` seconds a pass over the
    list wakes the balls near the player and puts the far ones to sleep,
    either by deactivating their object or by making their body kinematic.

    A list entry is `None` once its body has been destroyed. The distance
    from the player is an input carried with each body. */
module BallActivity {
  import opened Options

  const BallTag: string := "Ball"

  /** A rigidbody as the manager sees it: its tag, its distance from the
      player, whether its object is active, whether it is kinematic. */
  datatype Body = Body(tag: string, dist: real, active: bool, kinematic: bool)

  datatype Config = Config(activeDistance: real, disableCompletely: bool)

  /** Near means strictly closer than `activeDistance`. */
  predicate IsNear(cfg: Config, b: Body) {
    b.dist < cfg.activeDistance
  }

  /** One body of a pass: in `disableCompletely` mode its object is active
      exactly when near; otherwise its body is kinematic exactly when far.
      The other flag is not touched. */
  function Cull(cfg: Config, b: Body): (r: Body)
    ensures r.tag == b.tag && r.dist == b.dist
    ensures cfg.disableCompletely ==> r.active == IsNear(cfg, b) && r.kinematic == b.kinematic
    ensures !cfg.disableCompletely ==> r.kinematic == !IsNear(cfg, b) && r.active == b.active
  {
    var near := b.dist < cfg.activeDistance;
    if cfg.disableCompletely then
      (if b.active != near then b.(active := near) else b)
    else
      (if b.kinematic == near then b.(kinematic := !near) else b)
  }

  /** One entry of a pass: destroyed bodies are skipped, and nothing is done
      while there is no player. */
  function CullEntry(cfg: Config, playerPresent: bool, e: Option<Body>): Option<Body> {
    if playerPresent && e.Some? then Some(Cull(cfg, e.value)) else e
  }

  /** One iteration of the `CheckBalls` loop, as a whole-list function. */
  function CullPass(cfg: Config, playerPresent: bool, balls: seq<Option<Body>>): (r: seq<Option<Body>>)
    ensures |r| == |balls|
    ensures !playerPresent ==> r == balls
    ensures forall i :: 0 <= i < |balls| ==> (r[i].Some? <==> balls[i].Some?)
    ensures playerPresent ==>
              forall i :: 0 <= i < |balls| && balls[i].Some? ==>
                r[i].value.dist == balls[i].value.dist && r[i].value.tag == balls[i].value.tag
                && (cfg.disableCompletely ==>
                      r[i].value.active == IsNear(cfg, balls[i].value)
                      && r[i].value.kinematic == balls[i].value.kinematic)
                && (!cfg.disableCompletely ==>
                      r[i].value.kinematic == !IsNear(cfg, balls[i].value)
                      && r[i].value.active == balls[i].value.active)
  {
    seq(|balls|, i requires 0 <= i < |balls| => CullEntry(cfg, playerPresent, balls[i]))
  }

  /** With the same distances, a second pass changes nothing. */
  lemma CullPassIdempotent(cfg: Config, playerPresent: bool, balls: seq<Option<Body>>)
    ensures CullPass(cfg, playerPresent, CullPass(cfg, playerPresent, balls)) == CullPass(cfg, playerPresent, balls)
  {
    var once := CullPass(cfg, playerPresent, balls);
    var twice := CullPass(cfg, playerPresent, once);
    forall i | 0 <= i < |balls| ensures twice[i] == once[i] {
      if playerPresent && balls[i].Some? {
        assert Cull(cfg, once[i].value) == once[i].value;
      }
    }
  }

  /** The `CheckBalls` loop body over the list, recording the entries whose
      flag it actually wrote: a setter is called only when the flag differs
      from the wanted value. */
  method CheckBalls(cfg: Config, playerPresent: bool, balls: seq<Option<Body>>)
    returns (r: seq<Option<Body>>, written: seq<nat>)
    ensures r == CullPass(cfg, playerPresent, balls)
    ensures forall k :: 0 <= k < |written| ==> written[k] < |balls|
    ensures forall k, l :: 0 <= k < l < |written| ==> written[k] < written[l]
    ensures forall i :: 0 <= i < |balls| ==> (i in written <==> r[i] != balls[i])
  {
    r, written := [], [];
    if !playerPresent {
      r := balls;
      return;
    }
    var i := 0;
    while i < |balls|
      invariant 0 <= i <= |balls|
      invariant |r| == i
      invariant forall j :: 0 <= j < i ==> r[j] == CullEntry(cfg, playerPresent, balls[j])
      invariant forall k :: 0 <= k < |written| ==> written[k] < i
      invariant forall k, l :: 0 <= k < l < |written| ==> written[k] < written[l]
      invariant forall j :: 0 <= j < i ==> (j in written <==> r[j] != balls[j])
    {
      var e := balls[i];
      if e.Some? {
        var b := Cull(cfg, e.value);
        if b != e.value {
          written := written + [i];
        }
        r := r + [Some(b)];
      } else {
        r := r + [e];
      }
      i := i + 1;
    }
  }

  /** Every live entry of the list is a body tagged "Ball". */
  ghost predicate AllBalls(balls: seq<Option<Body>>) {
    forall i :: 0 <= i < |balls| && balls[i].Some? ==> balls[i].value.tag == BallTag
  }

  /** The tag filter of `Start`: the bodies found, in order, keeping those
      tagged "Ball". */
  function Collect(found: seq<Body>): (r: seq<Option<Body>>)
    ensures |r| <= |found|
    ensures AllBalls(r)
    ensures forall i :: 0 <= i < |r| ==> r[i].Some? && r[i].value in found
    ensures forall b :: b in found && b.tag == BallTag ==> Some(b) in r
  {
    if found == [] then []
    else
      var rest := Collect(found[1..]);
      assert forall b :: b in found[1..] ==> b in found;
      if found[0].tag == BallTag then [Some(found[0])] + rest else rest
  }

  /** `Start` keeps each ball as often as it was found, and nothing else. */
  lemma {:induction false} CollectCount(found: seq<Body>, b: Body)
    ensures multiset(Collect(found))[Some(b)] == (if b.tag == BallTag then multiset(found)[b] else 0)
    ensures multiset(Collect(found))[None] == 0
    decreases |found|
  {
    if found != [] {
      var x, tail := found[0], found[1..];
      CollectCount(tail, b);
      assert found == [x] + tail;
      assert multiset(found)[b] == multiset([x])[b] + multiset(tail)[b];
      var rest := Collect(tail);
      if x.tag == BallTag {
        assert Collect(found) == [Some(x)] + rest;
        assert multiset(Collect(found)) == multiset([Some(x)]) + multiset(rest);
      } else {
        assert Collect(found) == rest;
      }
    }
  }

  /** Filtering keeps the order: collecting two lists one after the other is
      collecting their concatenation. */
  lemma {:induction false} CollectAppend(a: seq<Body>, b: seq<Body>)
    ensures Collect(a + b) == Collect(a) + Collect(b)
    decreases |a|
  {
    if a == [] {
      assert a + b == b;
    } else {
      assert (a + b)[0] == a[0];
      assert (a + b)[1..] == a[1..] + b;
      CollectAppend(a[1..], b);
    }
  }

  /** `RegisterBall`: the list grows by the object's rigidbody when it has
      one tagged "Ball", and is unchanged otherwise. */
  function RegisterBall(balls: seq<Option<Body>>, rb: Option<Body>): (r: seq<Option<Body>>)
    ensures rb.Some? && rb.value.tag == BallTag ==> r == balls + [rb]
    ensures !(rb.Some? && rb.value.tag == BallTag) ==> r == balls
    ensures AllBalls(balls) ==> AllBalls(r)
  {
    if rb.Some? && rb.value.tag == BallTag then balls + [rb] else balls
  }

  /** Passes never change tags, so the list stays all balls. */
  lemma CullPassKeepsAllBalls(cfg: Config, playerPresent: bool, balls: seq<Option<Body>>)
    requires AllBalls(balls)
    ensures AllBalls(CullPass(cfg, playerPresent, balls))
  {
  }
}

=== FILE: door.dfy ===
/** The door of Assets/Scripts/Door.cs: an interactable that swings its
    parent a quarter turn open or shut with a tween, locked while the tween
    runs, with an opening or closing sound at a randomised pitch.

    Orientations are yaw offsets in degrees from the parent's rotation as
    `Start` captured it: the closed rotation is offset 0 and the open one is
    the closed rotation turned by -90 degrees about the local up axis. The
    tween is an explicit later `Complete` event. */
module Door {
  import opened Options
  import opened Numeric

  /** Yaw of the closed rotation captured at `Start`. */
  const ClosedYaw: int := 0
  /** Yaw of `_openRot`: a quarter turn the negative way from closed. */
  const OpenYaw: int := ClosedYaw - 90

  type ClipId = nat

  /** A `Vector2` pitch range: `Random.Range(lo, hi)`. */
  datatype PitchRange = PitchRange(lo: real, hi: real)

  /** The serialized settings. A missing clip is `None`. */
  datatype Config = Config(
    message: string,
    openSfx: Option<ClipId>,
    closeSfx: Option<ClipId>,
    openVolume: real,
    closeVolume: real,
    openPitchRange: PitchRange,
    closePitchRange: PitchRange,
    randomizePitch: bool)

  /** The door's state: the lock, the open flag, the box collider's trigger
      flag, the parent's yaw and the target of the running tween, if any. */
  datatype Door = Door(cantInteract: bool, isOpen: bool, colliderTrigger: bool, yaw: int, tween: Option<int>)

  /** The `AudioSource` as far as the door uses it: its pitch. */
  datatype AudioSource = AudioSource(pitch: real)

  /** One `PlayOneShot` request. */
  datatype Playback = Playback(clip: ClipId, volume: real, pitch: real)

  /** The door after `Awake` and `Start`: unlocked, parent at the closed
      rotation, no tween. `isOpen` and the collider's trigger flag keep their
      serialized values. */
  function Initial(isOpen: bool, colliderTrigger: bool): (d: Door)
    ensures !d.cantInteract && d.tween.None? && d.yaw == ClosedYaw
    ensures d.isOpen == isOpen && d.colliderTrigger == colliderTrigger
  {
    Door(false, isOpen, colliderTrigger, ClosedYaw, None)
  }

  /** The value `Random.Range(r.lo, r.hi)` returns for the uniform draw
      `roll` in `[0, 1]`: it lies between the two bounds. */
  function RandomRange(r: PitchRange, roll: real): (p: real)
    requires 0.0 <= roll <= 1.0
    ensures r.lo <= r.hi ==> r.lo <= p <= r.hi
    ensures r.hi <= r.lo ==> r.hi <= p <= r.lo
  {
    Between(r.lo, r.hi, roll);
    r.lo + (r.hi - r.lo) * roll
  }

  /** `PlayOneShotVar`: with a source and a clip, play the clip once at the
      given volume, at a pitch drawn from the range if one is given and at
      the source's own pitch otherwise; the source's pitch is restored
      afterwards. Without a source or a clip, nothing happens. */
  function PlayOneShotVar(source: Option<AudioSource>, clip: Option<ClipId>, volume: real,
                          pitchRange: Option<PitchRange>, roll: real): (r: (Option<AudioSource>, Option<Playback>))
    requires 0.0 <= roll <= 1.0
    ensures r.0 == source
    ensures r.1.Some? <==> source.Some? && clip.Some?
    ensures r.1.Some? ==> r.1.value.clip == clip.value && r.1.value.volume == volume
    ensures r.1.Some? && pitchRange.None? ==> r.1.value.pitch == source.value.pitch
    ensures r.1.Some? && pitchRange.Some? && pitchRange.value.lo <= pitchRange.value.hi ==>
              pitchRange.value.lo <= r.1.value.pitch <= pitchRange.value.hi
    ensures r.1.Some? && pitchRange.Some? && pitchRange.value.hi <= pitchRange.value.lo ==>
              pitchRange.value.hi <= r.1.value.pitch <= pitchRange.value.lo
  {
    if source.None? || clip.None? then (source, None)
    else
      var oldPitch := source.value.pitch;
      var playing := if pitchRange.Some? then AudioSource(RandomRange(pitchRange.value, roll)) else source.value;
      var played := Playback(clip.value, volume, playing.pitch);
      (Some(AudioSource(oldPitch)), Some(played))
  }

  /** What `Interact` leaves behind. */
  datatype InteractResult = InteractResult(door: Door, source: Option<AudioSource>, playback: Option<Playback>)

  /** `Interact`: ignored while locked; otherwise lock, make the collider a
      trigger, tween towards the closed rotation if open and the open one if
      closed, and play the sound of that movement. `isOpen` flips only when
      the tween completes. */
  function Interact(cfg: Config, d: Door, source: Option<AudioSource>, roll: real): (r: InteractResult)
    requires 0.0 <= roll <= 1.0
    // while locked: nothing changes, nothing sounds
    ensures d.cantInteract ==> r.door == d && r.source == source && r.playback.None?
    // accepted: locked, trigger, target chosen from isOpen, isOpen unchanged
    ensures !d.cantInteract ==>
              r.door.cantInteract && r.door.colliderTrigger && r.door.isOpen == d.isOpen && r.door.yaw == d.yaw
              && r.door.tween == Some(if d.isOpen then ClosedYaw else OpenYaw)
    // the opening sound when it was closed, the closing one when it was open
    ensures r.playback.Some? <==>
              !d.cantInteract && source.Some? && (if d.isOpen then cfg.closeSfx else cfg.openSfx).Some?
    ensures r.playback.Some? ==>
              r.playback.value.clip == (if d.isOpen then cfg.closeSfx else cfg.openSfx).value
              && r.playback.value.volume == (if d.isOpen then cfg.closeVolume else cfg.openVolume)
    // with randomizePitch, the pitch is drawn from that movement's range
    ensures r.playback.Some? && cfg.randomizePitch ==>
              var range := if d.isOpen then cfg.closePitchRange else cfg.openPitchRange;
              (range.lo <= range.hi ==> range.lo <= r.playback.value.pitch <= range.hi)
              && (range.hi <= range.lo ==> range.hi <= r.playback.value.pitch <= range.lo)
    // without it, the sound plays at the source's own pitch
    ensures r.playback.Some? && !cfg.randomizePitch ==> r.playback.value.pitch == source.value.pitch
    ensures r.source == source
  {
    if d.cantInteract then InteractResult(d, source, None)
    else
      var target := if d.isOpen then ClosedYaw else OpenYaw;
      var d' := d.(cantInteract := true, colliderTrigger := true, tween := Some(target));
      var sfx := if !d.isOpen
        then PlayOneShotVar(source, cfg.openSfx, cfg.openVolume,
                            if cfg.randomizePitch then Some(cfg.openPitchRange) else None, roll)
        else PlayOneShotVar(source, cfg.closeSfx, cfg.closeVolume,
                            if cfg.randomizePitch then Some(cfg.closePitchRange) else None, roll);
      InteractResult(d', sfx.0, sfx.1)
  }

  /** The tween's `OnComplete`: the parent is at the target, `isOpen` flips,
      the collider is solid again and the door unlocked. Without a running
      tween there is nothing to complete. */
  function Complete(d: Door): (r: Door)
    ensures d.tween.None? ==> r == d
    ensures d.tween.Some? ==>
              r.isOpen == !d.isOpen && !r.colliderTrigger && !r.cantInteract
              && r.yaw == d.tween.value && r.tween.None?
  {
    match d.tween
    case None => d
    case Some(target) => Door(false, !d.isOpen, false, target, None)
  }

  /** A door whose flags agree with its motion: at rest it is unlocked,
      solid and at the rotation its `isOpen` names; while a tween runs it is
      locked, a trigger, and heading for the other rotation. */
  ghost predicate Settled(d: Door) {
    if d.tween.None? then
      !d.cantInteract && !d.colliderTrigger && d.yaw == (if d.isOpen then OpenYaw else ClosedYaw)
    else
      d.cantInteract && d.colliderTrigger && d.tween.value == (if d.isOpen then ClosedYaw else OpenYaw)
  }

  datatype Event = InteractPressed(roll: real) | TweenCompleted

  ghost predicate ValidRolls(evs: seq<Event>) {
    forall i :: 0 <= i < |evs| ==> (evs[i].InteractPressed? ==> 0.0 <= evs[i].roll <= 1.0)
  }

  function Run(cfg: Config, d: Door, source: Option<AudioSource>, evs: seq<Event>): Door
    requires ValidRolls(evs)
    decreases |evs|
  {
    if evs == [] then d
    else
      var d' := match evs[0]
        case InteractPressed(roll) => Interact(cfg, d, source, roll).door
        case TweenCompleted => Complete(d);
      Run(cfg, d', source, evs[1..])
  }

  /** Any sequence of interactions and completions keeps a door that starts
      closed and solid settled. */
  lemma {:induction false} RunKeepsSettled(cfg: Config, d: Door, source: Option<AudioSource>, evs: seq<Event>)
    requires ValidRolls(evs) && Settled(d)
    ensures Settled(Run(cfg, d, source, evs))
    decreases |evs|
  {
    if evs != [] {
      var d' := match evs[0]
        case InteractPressed(roll) => Interact(cfg, d, source, roll).door
        case TweenCompleted => Complete(d);
      assert Settled(d');
      assert ValidRolls(evs[1..]) by {
        forall i | 0 <= i < |evs[1..]| ensures evs[1..][i].InteractPressed? ==> 0.0 <= evs[1..][i].roll <= 1.0 {
          assert evs[1..][i] == evs[i + 1];
        }
      }
      RunKeepsSettled(cfg, d', source, evs[1..]);
    }
  }

  lemma InitialClosedIsSettled()
    ensures Settled(Initial(false, false))
  {
  }

  /** Two interactions, each completed, bring a settled door back to where
      it was: same `isOpen`, same rotation, unlocked and solid. */
  lemma TwoCyclesRestore(cfg: Config, d: Door, source: Option<AudioSource>, roll1: real, roll2: real)
    requires Settled(d) && d.tween.None?
    requires 0.0 <= roll1 <= 1.0 && 0.0 <= roll2 <= 1.0
    ensures var d1 := Complete(Interact(cfg, d, source, roll1).door);
            var d2 := Complete(Interact(cfg, d1, source, roll2).door);
            d2 == d && d1.isOpen == !d.isOpen
  {
  }

  /** Pressing again while the tween runs changes nothing: one press, one
      quarter turn, and the door ends open, solid and unlocked. */
  lemma RepeatedInteractIgnored(cfg: Config, source: Option<AudioSource>, roll1: real, roll2: real)
    requires 0.0 <= roll1 <= 1.0 && 0.0 <= roll2 <= 1.0
    ensures var d0 := Initial(false, false);
            var d1 := Interact(cfg, d0, source, roll1).door;
            var d2 := Interact(cfg, d1, source, roll2);
            d2.door == d1 && d2.playback.None?
            && Complete(d2.door) == Door(false, true, false, OpenYaw, None)
  {
  }
}

=== FILE: feedback.dfy ===
/** The stamina feedback of `Movement`: normalised stamina and the two
    post-processing parameters derived from it every fixed step, the
    vignette intensity and the retro effect's vertical resolution. */
module Feedback {
  import opened Numeric

  /** The inspector values of the post-processing mapping. */
  datatype PostFx = PostFx(vignetteFull: real, vignetteEmpty: real, vertResFull: real, vertResEmpty: real)

  /** `Stamina01`: the share of the capacity left, 0 when there is no
      capacity. */
  function Stamina01(staminaMax: real, stamina: real): (r: real)
    ensures 0.0 <= r <= 1.0
    ensures staminaMax <= 0.0 ==> r == 0.0
    ensures staminaMax > 0.0 && 0.0 <= stamina <= staminaMax ==> r * staminaMax == stamina
    ensures staminaMax > 0.0 && stamina >= staminaMax ==> r == 1.0
    ensures staminaMax > 0.0 && stamina <= 0.0 ==> r == 0.0
  {
    if staminaMax > 0.0 then
      ShareFacts(staminaMax, stamina);
      Clamp01(stamina / staminaMax)
    else 0.0
  }

  /** The quotient by a positive capacity gives the stamina back when
      multiplied, is at most 0 for no stamina and at least 1 for a full
      one. */
  lemma ShareFacts(staminaMax: real, stamina: real)
    requires staminaMax > 0.0
    ensures (stamina / staminaMax) * staminaMax == stamina
    ensures stamina <= 0.0 ==> stamina / staminaMax <= 0.0
    ensures stamina >= staminaMax ==> stamina / staminaMax >= 1.0
  {
    if stamina <= 0.0 {
      DivMonotone(stamina, 0.0, staminaMax);
    }
    if stamina >= staminaMax {
      DivMonotone(staminaMax, stamina, staminaMax);
    }
  }

  /** More stamina never gives a smaller share. */
  lemma Stamina01Monotone(staminaMax: real, a: real, b: real)
    requires a <= b
    ensures Stamina01(staminaMax, a) <= Stamina01(staminaMax, b)
  {
    if staminaMax > 0.0 {
      DivMonotone(a, b, staminaMax);
    }
  }

  lemma DivMonotone(a: real, b: real, c: real)
    requires a <= b && c > 0.0
    ensures a / c <= b / c
  {
    assert b / c - a / c == (b - a) / c;
  }

  /** The quotient of an in-range stamina by a positive capacity lies in
      `[0, 1]`. */
  lemma ShareInUnit(staminaMax: real, stamina: real)
    ensures staminaMax > 0.0 && 0.0 <= stamina <= staminaMax ==> 0.0 <= stamina / staminaMax <= 1.0
  {
    if staminaMax > 0.0 && 0.0 <= stamina <= staminaMax {
      DivMonotone(0.0, stamina, staminaMax);
      DivMonotone(stamina, staminaMax, staminaMax);
    }
  }

  /** `Mathf.Lerp`: interpolation with the parameter clamped to `[0, 1]`. */
  function Lerp(a: real, b: real, t: real): (r: real)
    ensures t <= 0.0 ==> r == a
    ensures t >= 1.0 ==> r == b
    ensures 0.0 <= t <= 1.0 ==> r == (1.0 - t) * a + t * b
    ensures Min(a, b) <= r <= Max(a, b)
  {
    var c := Clamp01(t);
    Between(a, b, c);
    Weighted(a, b, c);
    a + (b - a) * c
  }

  /** Moving a fraction `c` from `a` towards `b` is weighing `a` by `1 - c`
      and `b` by `c`. */
  lemma Weighted(a: real, b: real, c: real)
    ensures a + (b - a) * c == (1.0 - c) * a + c * b
  {
  }

  /** Going further along the parameter moves the interpolation towards `b`. */
  lemma LerpMonotone(a: real, b: real, t1: real, t2: real)
    requires a <= b && t1 <= t2
    ensures Lerp(a, b, t1) <= Lerp(a, b, t2)
  {
    var c1, c2 := Clamp01(t1), Clamp01(t2);
    assert c1 <= c2;
    assert (b - a) * c2 - (b - a) * c1 == (b - a) * (c2 - c1);
    MulBetween(b - a, c2 - c1);
  }

  /** The mapping both effects share: `Mathf.Lerp(full, empty, 1 - Stamina01)`,
      so `full` at full stamina, `empty` at none or without capacity, and the
      two weighed by the stamina's share in between. */
  function ByStamina(full: real, empty: real, staminaMax: real, stamina: real): (v: real)
    ensures staminaMax > 0.0 && stamina >= staminaMax ==> v == full
    ensures stamina <= 0.0 || staminaMax <= 0.0 ==> v == empty
    ensures Min(full, empty) <= v <= Max(full, empty)
    ensures staminaMax > 0.0 && 0.0 <= stamina <= staminaMax ==>
              v == (stamina / staminaMax) * full + (1.0 - stamina / staminaMax) * empty
  {
    var k := Stamina01(staminaMax, stamina);
    ShareInUnit(staminaMax, stamina);
    assert 1.0 - (1.0 - k) == k;
    Lerp(full, empty, 1.0 - k)
  }

  /** With `empty <= full`, more stamina never lowers the mapped value. */
  lemma ByStaminaMonotone(full: real, empty: real, staminaMax: real, a: real, b: real)
    requires empty <= full && a <= b
    ensures ByStamina(full, empty, staminaMax, a) <= ByStamina(full, empty, staminaMax, b)
  {
    var ka, kb := Stamina01(staminaMax, a), Stamina01(staminaMax, b);
    Stamina01Monotone(staminaMax, a, b);
    LerpMonotone(empty, full, ka, kb);
    LerpSwap(full, empty, 1.0 - ka);
    LerpSwap(full, empty, 1.0 - kb);
    assert 1.0 - (1.0 - ka) == ka && 1.0 - (1.0 - kb) == kb;
  }

  /** Interpolating from `a` to `b` at `t` is interpolating from `b` to `a`
      at `1 - t`. */
  lemma LerpSwap(a: real, b: real, t: real)
    ensures Lerp(a, b, t) == Lerp(b, a, 1.0 - t)
  {
    assert Clamp01(1.0 - t) == 1.0 - Clamp01(t);
  }

  /** The vignette intensity: `vignetteFull` at full stamina, `vignetteEmpty`
      at none, the two weighed by the stamina's share in between. */
  function Vignette(fx: PostFx, staminaMax: real, stamina: real): (v: real)
    ensures staminaMax > 0.0 && stamina >= staminaMax ==> v == fx.vignetteFull
    ensures stamina <= 0.0 || staminaMax <= 0.0 ==> v == fx.vignetteEmpty
    ensures Min(fx.vignetteFull, fx.vignetteEmpty) <= v <= Max(fx.vignetteFull, fx.vignetteEmpty)
    ensures staminaMax > 0.0 && 0.0 <= stamina <= staminaMax ==>
              v == (stamina / staminaMax) * fx.vignetteFull + (1.0 - stamina / staminaMax) * fx.vignetteEmpty
  {
    ByStamina(fx.vignetteFull, fx.vignetteEmpty, staminaMax, stamina)
  }

  /** With a darker empty vignette, more stamina never darkens it. */
  lemma VignetteMonotone(fx: PostFx, staminaMax: real, a: real, b: real)
    requires fx.vignetteFull <= fx.vignetteEmpty && a <= b
    ensures Vignette(fx, staminaMax, b) <= Vignette(fx, staminaMax, a)
  {
    // the same mapping with the roles of the ends exchanged, negated
    ByStaminaMonotone(-fx.vignetteFull, -fx.vignetteEmpty, staminaMax, a, b);
    NegatedByStamina(fx.vignetteFull, fx.vignetteEmpty, staminaMax, a);
    NegatedByStamina(fx.vignetteFull, fx.vignetteEmpty, staminaMax, b);
  }

  /** Negating both ends negates the mapped value. */
  lemma NegatedByStamina(full: real, empty: real, staminaMax: real, stamina: real)
    ensures ByStamina(-full, -empty, staminaMax, stamina) == -ByStamina(full, empty, staminaMax, stamina)
  {
    var c := Clamp01(1.0 - Stamina01(staminaMax, stamina));
    assert -full + (-empty - -full) * c == -(full + (empty - full) * c);
  }

  /** `Mathf.RoundToInt`: the nearest integer, halves going to the even one. */
  function RoundToInt(x: real): (n: int)
    ensures (n as real) - x <= 0.5 && x - (n as real) <= 0.5
    ensures ((n as real) - x == 0.5 || x - (n as real) == 0.5) ==> n % 2 == 0
  {
    var f := x.Floor;
    var frac := x - f as real;
    if frac < 0.5 then f
    else if frac > 0.5 then f + 1
    else if f % 2 == 0 then f else f + 1
  }

  /** The contract of `RoundToInt` determines its result. */
  lemma RoundToIntUnique(x: real, n: int)
    requires (n as real) - x <= 0.5 && x - (n as real) <= 0.5
    requires ((n as real) - x == 0.5 || x - (n as real) == 0.5) ==> n % 2 == 0
    ensures n == RoundToInt(x)
  {
  }

  lemma RoundToIntMonotone(x: real, y: real)
    requires x <= y
    ensures RoundToInt(x) <= RoundToInt(y)
  {
  }

  /** The retro effect's vertical resolution: the mapped resolution rounded
      to an integer. */
  function VerticalResolution(fx: PostFx, staminaMax: real, stamina: real): (n: int)
    ensures staminaMax > 0.0 && stamina >= staminaMax ==> n == RoundToInt(fx.vertResFull)
    ensures stamina <= 0.0 || staminaMax <= 0.0 ==> n == RoundToInt(fx.vertResEmpty)
    ensures RoundToInt(Min(fx.vertResFull, fx.vertResEmpty)) <= n <= RoundToInt(Max(fx.vertResFull, fx.vertResEmpty))
    ensures staminaMax > 0.0 && 0.0 <= stamina <= staminaMax ==>
              n == RoundToInt((stamina / staminaMax) * fx.vertResFull + (1.0 - stamina / staminaMax) * fx.vertResEmpty)
  {
    var v := ByStamina(fx.vertResFull, fx.vertResEmpty, staminaMax, stamina);
    RoundToIntMonotone(Min(fx.vertResFull, fx.vertResEmpty), v);
    RoundToIntMonotone(v, Max(fx.vertResFull, fx.vertResEmpty));
    RoundToInt(v)
  }

  /** With a coarser empty resolution, more stamina never lowers it. */
  lemma VerticalResolutionMonotone(fx: PostFx, staminaMax: real, a: real, b: real)
    requires fx.vertResFull >= fx.vertResEmpty && a <= b
    ensures VerticalResolution(fx, staminaMax, a) <= VerticalResolution(fx, staminaMax, b)
  {
    ByStaminaMonotone(fx.vertResFull, fx.vertResEmpty, staminaMax, a, b);
    RoundToIntMonotone(ByStamina(fx.vertResFull, fx.vertResEmpty, staminaMax, a),
                       ByStamina(fx.vertResFull, fx.vertResEmpty, staminaMax, b));
  }
}

=== FILE: interaction.dfy ===
/** The player's `InteractionController` (Assets/Scripts/InteractionController.cs):
    every frame it casts a ray from the screen centre, highlights the object
    hit, remembers the interactable under the crosshair, shows its prompt and
    calls its `Interact` when F is pressed.

    The ray cast is an input: what it hit, if anything. Objects and outline
    components are identities; the outlines that are switched on are a set. */
module Interaction {
  import opened Options

  type ObjectId = nat
  type OutlineId = nat

  /** An interactable as the controller uses it: who it is and its prompt. */
  datatype Interactable = Interactable(id: ObjectId, message: string)

  /** What the ray hit: the collider's object, the interactable on it and
      whether that interactable currently refuses interaction, and the
      object's outline component. */
  datatype Hit = Hit(obj: ObjectId, interactable: Option<Interactable>, cantInteract: bool, outline: Option<OutlineId>)

  /** The controller's fields, the outlines switched on, and the prompt. */
  datatype Controller = Controller(
    target: Option<Interactable>,
    lastOutlinedObj: Option<ObjectId>,
    lastOutline: Option<OutlineId>,
    lit: set<OutlineId>,
    text: string)

  function Initial(): (c: Controller)
    ensures c.target.None? && c.lastOutlinedObj.None? && c.lit == {} && c.text == ""
  {
    Controller(None, None, None, {}, "")
  }

  function HitObject(hit: Option<Hit>): Option<ObjectId> {
    if hit.Some? then Some(hit.value.obj) else None
  }

  /** The hit is an interactable that refuses interaction. */
  predicate Refused(hit: Option<Hit>) {
    hit.Some? && hit.value.interactable.Some? && hit.value.cantInteract
  }

  function OutlineSet(o: Option<OutlineId>): set<OutlineId> {
    if o.Some? then {o.value} else {}
  }

  /** `UpdateCurrentInteractable`. */
  function UpdateCurrentInteractable(c: Controller, hit: Option<Hit>): (r: Controller)
    // a refusing interactable under the crosshair changes nothing at all
    ensures Refused(hit) ==> r == c
    // otherwise the target is the interactable hit, or none
    ensures !Refused(hit) ==> r.target == (if hit.Some? then hit.value.interactable else None)
    // a newly hit object: the old outline goes off, the new one (if any) on and cached
    ensures !Refused(hit) && HitObject(hit) != c.lastOutlinedObj ==>
              r.lastOutlinedObj == HitObject(hit)
              && r.lastOutline == (if hit.Some? then hit.value.outline else None)
              && r.lit == c.lit - OutlineSet(c.lastOutline) + OutlineSet(r.lastOutline)
    // the same object again: no outline is touched
    ensures HitObject(hit) == c.lastOutlinedObj ==>
              r.lastOutlinedObj == c.lastOutlinedObj && r.lastOutline == c.lastOutline && r.lit == c.lit
    ensures r.text == c.text
  {
    if Refused(hit) then c
    else
      var hitObj := HitObject(hit);
      var c' :=
        if hitObj != c.lastOutlinedObj then
          var off := c.lit - OutlineSet(c.lastOutline);
          var o := if hit.Some? then hit.value.outline else None;
          c.(lastOutlinedObj := hitObj, lastOutline := o, lit := off + OutlineSet(o))
        else c;
      c'.(target := if hit.Some? then hit.value.interactable else None)
  }

  /** `UpdateInteractionText`: without a text widget nothing happens;
      otherwise the prompt is the target's message, or empty. */
  function UpdateInteractionText(c: Controller, hasText: bool): (r: Controller)
    ensures !hasText ==> r == c
    ensures hasText ==> r.text == (if c.target.Some? then c.target.value.message else "")
    ensures r.target == c.target && r.lastOutlinedObj == c.lastOutlinedObj
    ensures r.lastOutline == c.lastOutline && r.lit == c.lit
  {
    if !hasText then c
    else if c.target.None? then c.(text := "")
    else c.(text := c.target.value.message)
  }

  /** `CheckForInteractionInput`: the interactable whose `Interact` is called. */
  function CheckForInteractionInput(c: Controller, fPressed: bool): (called: Option<ObjectId>)
    ensures called.Some? <==> fPressed && c.target.Some?
    ensures called.Some? ==> called.value == c.target.value.id
  {
    if fPressed && c.target.Some? then Some(c.target.value.id) else None
  }

  datatype FrameResult = FrameResult(controller: Controller, called: Option<ObjectId>)

  /** One `Update`: targeting, then the prompt, then the input check, so the
      press acts on the target of this very frame. */
  function Frame(c: Controller, hasText: bool, hit: Option<Hit>, fPressed: bool): (r: FrameResult)
    ensures r.controller.target == UpdateCurrentInteractable(c, hit).target
    ensures hasText ==>
              r.controller.text == (if r.controller.target.Some? then r.controller.target.value.message else "")
    ensures r.called.Some? <==> fPressed && r.controller.target.Some?
    ensures r.called.Some? ==> r.called.value == r.controller.target.value.id
    // the highlighting is the targeting step's; the prompt is left alone without a widget
    ensures var u := UpdateCurrentInteractable(c, hit);
            r.controller.lastOutlinedObj == u.lastOutlinedObj && r.controller.lastOutline == u.lastOutline
            && r.controller.lit == u.lit
    ensures !hasText ==> r.controller.text == c.text
  {
    var c1 := UpdateCurrentInteractable(c, hit);
    var c2 := UpdateInteractionText(c1, hasText);
    FrameResult(c2, CheckForInteractionInput(c2, fPressed))
  }

  /** The controller's own highlighting: the outlines on are exactly the
      cached one, which belongs to a remembered object. */
  ghost predicate Inv(c: Controller) {
    c.lit == OutlineSet(c.lastOutline) && (c.lastOutline.Some? ==> c.lastOutlinedObj.Some?)
  }

  lemma InitialInv()
    ensures Inv(Initial())
  {
  }

  /** At most one outline is ever on, and it is the cached one. */
  lemma FrameKeepsInv(c: Controller, hasText: bool, hit: Option<Hit>, fPressed: bool)
    requires Inv(c)
    ensures Inv(Frame(c, hasText, hit, fPressed).controller)
    ensures |Frame(c, hasText, hit, fPressed).controller.lit| <= 1
  {
    var r := Frame(c, hasText, hit, fPressed).controller;
    assert Inv(UpdateCurrentInteractable(c, hit));
    assert r.lit == OutlineSet(r.lastOutline);
  }

  /** One frame of input: the ray's hit and whether F went down. */
  datatype Input = Input(hit: Option<Hit>, fPressed: bool)

  /** The controller over a run of frames, with the interactables it called. */
  function Frames(c: Controller, hasText: bool, ins: seq<Input>): (r: (Controller, seq<ObjectId>))
    ensures |r.1| <= |ins|
    // without a press nothing is ever dispatched
    ensures (forall i :: 0 <= i < |ins| ==> !ins[i].fPressed) ==> r.1 == []
    decreases |ins|
  {
    assert forall i :: 0 < i < |ins| ==> ins[1..][i - 1] == ins[i];
    if ins == [] then (c, [])
    else
      var f := Frame(c, hasText, ins[0].hit, ins[0].fPressed);
      var rest := Frames(f.controller, hasText, ins[1..]);
      (rest.0, (if f.called.Some? then [f.called.value] else []) + rest.1)
  }

  /** The dispatches of one frame: its own call, if any. */
  lemma FramesOne(c: Controller, hasText: bool, i: Input)
    ensures var f := Frame(c, hasText, i.hit, i.fPressed);
            Frames(c, hasText, [i]) == (f.controller, if f.called.Some? then [f.called.value] else [])
  {
    var f := Frame(c, hasText, i.hit, i.fPressed);
    assert [i][1..] == [];
    assert (if f.called.Some? then [f.called.value] else []) + [] == (if f.called.Some? then [f.called.value] else []);
  }

  /** A run of a non-empty sequence of frames is its first frame followed by
      the run of the rest. */
  lemma FramesCons(c: Controller, hasText: bool, ins: seq<Input>)
    requires ins != []
    ensures var f := Frame(c, hasText, ins[0].hit, ins[0].fPressed);
            var rest := Frames(f.controller, hasText, ins[1..]);
            Frames(c, hasText, ins) == (rest.0, (if f.called.Some? then [f.called.value] else []) + rest.1)
  {
  }

  /** Frames compose: the run of `a + b` is the run of `a` followed by the
      run of `b` from where `a` left the controller, with the dispatches in
      frame order. */
  lemma {:induction false} FramesAppend(c: Controller, hasText: bool, a: seq<Input>, b: seq<Input>)
    ensures var ra := Frames(c, hasText, a);
            var rb := Frames(ra.0, hasText, b);
            Frames(c, hasText, a + b) == (rb.0, ra.1 + rb.1)
    decreases |a|
  {
    if a == [] {
      assert a + b == b;
      assert Frames(c, hasText, a) == (c, []);
      assert [] + Frames(c, hasText, b).1 == Frames(c, hasText, b).1;
    } else {
      var f := Frame(c, hasText, a[0].hit, a[0].fPressed);
      var mine := if f.called.Some? then [f.called.value] else [];
      var ra := Frames(f.controller, hasText, a[1..]);
      var rb := Frames(ra.0, hasText, b);
      assert mine + (ra.1 + rb.1) == (mine + ra.1) + rb.1;
      assert Frames(c, hasText, a) == (ra.0, mine + ra.1) by {
        FramesCons(c, hasText, a);
      }
      assert Frames(f.controller, hasText, a[1..] + b) == (rb.0, ra.1 + rb.1) by {
        FramesAppend(f.controller, hasText, a[1..], b);
      }
      assert Frames(c, hasText, a + b) == (rb.0, mine + (ra.1 + rb.1)) by {
        assert (a + b)[0] == a[0];
        assert (a + b)[1..] == a[1..] + b;
        FramesCons(c, hasText, a + b);
      }
    }
  }

  lemma {:induction false} FramesKeepInv(c: Controller, hasText: bool, ins: seq<Input>)
    requires Inv(c)
    ensures Inv(Frames(c, hasText, ins).0)
    decreases |ins|
  {
    if ins != [] {
      FrameKeepsInv(c, hasText, ins[0].hit, ins[0].fPressed);
      FramesKeepInv(Frame(c, hasText, ins[0].hit, ins[0].fPressed).controller, hasText, ins[1..]);
    }
  }

  /** Looking at an interactable that has just locked itself keeps it the
      target: a press on this frame calls its `Interact` again. */
  lemma RefusedHitStillDispatches(c: Controller, hasText: bool, h: Hit)
    requires c.target.Some? && h.interactable.Some? && h.cantInteract
    ensures Frame(c, hasText, Some(h), true).called == Some(c.target.value.id)
  {
  }

  /** Looking at an interactable and pressing F twice: the first press is
      always dispatched, and the second one too when the object has locked
      itself meanwhile. The interactable's own guard is all that stands
      between a locked object and a second `Interact`. */
  lemma DoublePressDispatchesTwice(hasText: bool, obj: ObjectId, it: Interactable, o: Option<OutlineId>)
    ensures var h1 := Hit(obj, Some(it), false, o);
            var h2 := Hit(obj, Some(it), true, o);
            Frames(Initial(), hasText, [Input(Some(h1), true), Input(Some(h2), true)]).1 == [it.id, it.id]
  {
    var h1 := Hit(obj, Some(it), false, o);
    var h2 := Hit(obj, Some(it), true, o);
    var f1 := Frame(Initial(), hasText, Some(h1), true);
    assert f1.called == Some(it.id);
    var f2 := Frame(f1.controller, hasText, Some(h2), true);
    assert f2.called == Some(it.id);
    assert Frames(f1.controller, hasText, [Input(Some(h2), true)]).1 == [it.id];
  }
}

=== FILE: legacy_door.dfy ===
/** The older door of Assets/Scripts/Object.cs (also a class named `Door`,
    so it lives in a module of its own). It differs from the current door in
    three ways: `Interact` has no guard on the lock, each swing is a relative
    quarter turn of the parent about the world up axis rather than a tween to
    an absolute rotation, and only the closing swing makes the collider solid
    again.

    Yaw is in degrees relative to the parent's rotation at load time. Each
    started swing is a pending tween; all have the same duration, so they
    complete in the order they were started, and a completing swing adds its
    whole quarter turn to the yaw. */
module LegacyDoor {

  /** The quarter turn of the opening swing; the closing swing is its
      negation. */
  const OpenTurn: int := 90

  /** A started swing: the yaw it adds and whether its completion clears the
      collider's trigger flag. */
  datatype Tween = Tween(delta: int, clearsTrigger: bool)

  /** Swing started from a closed door: open by a quarter turn, trigger left
      as it is on completion. */
  const OpeningSwing: Tween := Tween(OpenTurn, false)
  /** Swing started from an open door: back by a quarter turn, collider solid
      on completion. */
  const ClosingSwing: Tween := Tween(-OpenTurn, true)

  datatype Door = Door(cantInteract: bool, isOpen: bool, colliderTrigger: bool, yaw: int, pending: seq<Tween>)

  /** The door after `Awake`: unlocked, nothing pending; the open flag and
      the collider's trigger flag keep their serialized values. */
  function Initial(isOpen: bool, colliderTrigger: bool): (d: Door)
    ensures !d.cantInteract && d.pending == [] && d.yaw == 0
    ensures d.isOpen == isOpen && d.colliderTrigger == colliderTrigger
  {
    Door(false, isOpen, colliderTrigger, 0, [])
  }

  /** `Interact`, accepted whatever the lock says: lock, and start the swing
      the current open flag selects; a closed door becomes a trigger at once. */
  function Interact(d: Door): (r: Door)
    ensures r.cantInteract
    ensures r.isOpen == d.isOpen && r.yaw == d.yaw
    ensures r.pending == d.pending + [if d.isOpen then ClosingSwing else OpeningSwing]
    ensures r.colliderTrigger == (d.colliderTrigger || !d.isOpen)
  {
    if !d.isOpen then
      d.(cantInteract := true, colliderTrigger := true, pending := d.pending + [OpeningSwing])
    else
      d.(cantInteract := true, pending := d.pending + [ClosingSwing])
  }

  /** The oldest pending swing completes: its quarter turn is applied, the
      open flag flips, the lock is released, and a closing swing makes the
      collider solid. Without a pending swing nothing happens. */
  function Complete(d: Door): (r: Door)
    ensures d.pending == [] ==> r == d
    ensures d.pending != [] ==>
              r.yaw == d.yaw + d.pending[0].delta && r.isOpen == !d.isOpen && !r.cantInteract
              && r.colliderTrigger == (d.colliderTrigger && !d.pending[0].clearsTrigger)
              && r.pending == d.pending[1..]
  {
    if d.pending == [] then d
    else
      var t := d.pending[0];
      Door(false, !d.isOpen, d.colliderTrigger && !t.clearsTrigger, d.yaw + t.delta, d.pending[1..])
  }

  /** The corrected `Interact`: ignored while locked, as the current door
      does. */
  function GuardedInteract(d: Door): (r: Door)
    ensures d.cantInteract ==> r == d
    ensures !d.cantInteract ==> r == Interact(d)
  {
    if d.cantInteract then d else Interact(d)
  }

  /** The rotation the open flag names: a quarter turn when open. */
  function RestYaw(isOpen: bool): int {
    if isOpen then OpenTurn else 0
  }

  /** A door in step with itself. At rest: unlocked, at the rotation its
      open flag names, and a trigger exactly when open (the opening swing
      never clears the flag). In motion: one swing, locked, a trigger, and
      the swing leads to the other rest state. */
  ghost predicate Settled(d: Door) {
    d.yaw == RestYaw(d.isOpen)
    && (d.pending == [] ==> !d.cantInteract && d.colliderTrigger == d.isOpen)
    && (d.pending != [] ==>
          |d.pending| == 1 && d.cantInteract && d.colliderTrigger
          && d.pending[0] == (if d.isOpen then ClosingSwing else OpeningSwing))
  }

  datatype Event = InteractPressed | TweenCompleted

  /** The door driven by a sequence of presses and completions, with the
      given press handler. */
  function Run(d: Door, evs: seq<Event>, guarded: bool): Door
    decreases |evs|
  {
    if evs == [] then d
    else
      var d' := match evs[0]
        case InteractPressed => if guarded then GuardedInteract(d) else Interact(d)
        case TweenCompleted => Complete(d);
      Run(d', evs[1..], guarded)
  }

  /** With the guard, every sequence of presses and completions keeps a
      settled door settled. */
  lemma {:induction false} GuardedRunKeepsSettled(d: Door, evs: seq<Event>)
    requires Settled(d)
    ensures Settled(Run(d, evs, true))
    decreases |evs|
  {
    if evs != [] {
      var d' := match evs[0]
        case InteractPressed => GuardedInteract(d)
        case TweenCompleted => Complete(d);
      assert Settled(d');
      GuardedRunKeepsSettled(d', evs[1..]);
    }
  }

  /** A closed door at rest, opened and closed again with each swing
      completed, is back at its rotation, closed, solid and unlocked,
      whatever its collider flag was before. */
  lemma OpenThenCloseRestores(d: Door)
    requires d.pending == [] && !d.isOpen
    ensures var r := Run(d, [InteractPressed, TweenCompleted, InteractPressed, TweenCompleted], false);
            r.yaw == d.yaw && !r.isOpen && !r.colliderTrigger && !r.cantInteract && r.pending == []
  {
    var d1 := Complete(Interact(d));
    assert d1.isOpen && d1.yaw == d.yaw + OpenTurn;
    var d2 := Complete(Interact(d1));
    assert d2.yaw == d.yaw;
  }

  /** As written, a second press while the first swing runs is accepted: the
      closed door swings open twice, ends half a turn round yet reports itself
      closed, and is left a trigger that only a closing swing would clear. */
  lemma ReentryDesync()
    ensures var r := Run(Initial(false, false),
                         [InteractPressed, InteractPressed, TweenCompleted, TweenCompleted], false);
            r.yaw == 2 * OpenTurn && !r.isOpen && r.colliderTrigger && !r.cantInteract && r.pending == []
            && !Settled(r)
  {
    var d1 := Interact(Initial(false, false));
    var d2 := Interact(d1);
    assert d2.pending == [OpeningSwing, OpeningSwing];
    var d3 := Complete(d2);
    assert d3.pending == [OpeningSwing];
    assert Complete(d3).pending == [];
  }

  /** With the guard, the same presses give one swing: the door ends open, a
      quarter turn round, and settled. */
  lemma ReentryGuarded()
    ensures var r := Run(Initial(false, false),
                         [InteractPressed, InteractPressed, TweenCompleted, TweenCompleted], true);
            r.yaw == OpenTurn && r.isOpen && r.colliderTrigger && !r.cantInteract && r.pending == []
            && Settled(r)
  {
    var d1 := GuardedInteract(Initial(false, false));
    assert d1.pending == [OpeningSwing];
    assert GuardedInteract(d1) == d1;
    assert Complete(d1).pending == [];
  }
}

=== FILE: locomotion.dfy ===
/** The locomotion side of `Movement` (Assets/Scripts/Movement.cs): the jump
    rule of the per-frame `Update`, and the per-step `FixedUpdate` that
    samples ground contact, sets the camera's walk/run animation, runs the
    sprint machine, maps stamina to post-processing and writes the body's
    horizontal velocity.

    Engine queries and smoothing are inputs: the ground-contact result of
    `Physics.CheckSphere`, the smoothed move vector of `Vector2.SmoothDamp`,
    the body's right/forward axes and `Mathf.Sqrt`'s launch speed. */
module Locomotion {
  import opened Options
  import Sprint
  import Feedback

  datatype Vec2 = Vec2(x: real, y: real) {
    function SqrMagnitude(): real { x * x + y * y }
  }

  datatype Vec3 = Vec3(x: real, y: real, z: real) {
    function Plus(o: Vec3): Vec3 { Vec3(x + o.x, y + o.y, z + o.z) }
    function Times(k: real): Vec3 { Vec3(x * k, y * k, z * k) }
  }

  /** Squared length of the smoothed move vector above which the player
      counts as moving for the camera animation. */
  const MovingThreshold: real := 0.0001

  /** The tuning values: the sprint machine's, the post-processing ones,
      the walking speed, the jump height and the vertical component of the
      engine's `Physics.gravity`. */
  datatype Config = Config(
    sprint: Sprint.Config,
    fx: Feedback.PostFx,
    moveSpeed: real,
    jumpHeight: real,
    gravityY: real)

  /** Which optional collaborators were found at `Awake`: the camera
      animator, the vignette setting and the retro effect. */
  datatype Sinks = Sinks(animator: bool, vignette: bool, retro: bool)

  /** The controller's persistent state. */
  datatype Controller = Controller(sprint: Sprint.State, grounded: bool, jumpPressed: bool, velocity: Vec3)

  function Awake(cfg: Config, velocity: Vec3): (c: Controller)
    ensures c.sprint.stamina == cfg.sprint.staminaMax && Sprint.PhaseOf(c.sprint) == Sprint.Ready
    ensures !c.jumpPressed && !c.sprint.sprintHeld
  {
    Controller(Sprint.Initial(cfg.sprint), false, false, velocity)
  }

  /** The jump action was performed: the request is latched until the next
      frame. */
  function JumpPerformed(c: Controller): (r: Controller)
    ensures r.jumpPressed
    ensures r.sprint == c.sprint && r.grounded == c.grounded && r.velocity == c.velocity
  {
    c.(jumpPressed := true)
  }

  /** `launch` is a non-negative square root of `-2 * gravityY * jumpHeight`:
      the result of `Mathf.Sqrt` on that argument. */
  ghost predicate IsLaunchSpeed(cfg: Config, launch: real) {
    launch >= 0.0 && launch * launch == -2.0 * cfg.gravityY * cfg.jumpHeight
  }

  /** The jump rule of `Update`: a grounded, pending jump sets the vertical
      velocity to the launch speed `launch`, the value of `Mathf.Sqrt` on
      `-2 * Physics.gravity.y * jumpHeight`; under `Physics.gravity` alone
      that speed would rise exactly `jumpHeight`. The request is consumed
      every frame, whether or not it was honoured. */
  function Update(cfg: Config, c: Controller, launch: real): (r: Controller)
    ensures !r.jumpPressed
    ensures r.sprint == c.sprint && r.grounded == c.grounded
    ensures r.velocity.x == c.velocity.x && r.velocity.z == c.velocity.z
    ensures c.grounded && c.jumpPressed && IsLaunchSpeed(cfg, launch) ==> r.velocity.y >= 0.0
    // v^2 / (-2 * Physics.gravity.y) == jumpHeight
    ensures c.grounded && c.jumpPressed && IsLaunchSpeed(cfg, launch) && cfg.gravityY < 0.0 ==>
              r.velocity.y * r.velocity.y / (-2.0 * cfg.gravityY) == cfg.jumpHeight
    ensures !(c.grounded && c.jumpPressed) ==> r.velocity == c.velocity
  {
    var v := if c.grounded && c.jumpPressed then c.velocity.(y := launch) else c.velocity;
    c.(velocity := v, jumpPressed := false)
  }

  /** The horizontal velocity the player wishes: the smoothed move vector in
      the body's right/forward frame, scaled by the walking speed and the
      sprint machine's multiplier. */
  function Wish(right: Vec3, forward: Vec3, move: Vec2, moveSpeed: real, speedMul: real): (w: Vec3)
    ensures LevelFrame(right, forward) ==> w.y == 0.0
  {
    right.Times(move.x).Plus(forward.Times(move.y)).Times(moveSpeed * speedMul)
  }

  /** The velocity write: horizontal components replaced by the wish,
      vertical component (falling, a jump in progress) left to physics. */
  function WriteHorizontal(v: Vec3, wish: Vec3): (r: Vec3)
    ensures r.y == v.y
    ensures r.x == wish.x && r.z == wish.z
  {
    v.(x := wish.x, z := wish.z)
  }

  /** A level frame: unit forward axis in the horizontal plane and right axis
      a quarter turn from it, as for a body whose rotation is frozen except
      for yaw. */
  ghost predicate LevelFrame(right: Vec3, forward: Vec3) {
    forward.y == 0.0 && forward.x * forward.x + forward.z * forward.z == 1.0
    && right == Vec3(forward.z, 0.0, -forward.x)
  }

  /** In a level frame the horizontal speed written is the move vector's
      length times walking speed times multiplier: the axes neither stretch
      nor skew the input. */
  lemma WishSpeed(right: Vec3, forward: Vec3, move: Vec2, moveSpeed: real, speedMul: real)
    requires LevelFrame(right, forward)
    ensures var w := Wish(right, forward, move, moveSpeed, speedMul);
            var k := moveSpeed * speedMul;
            w.y == 0.0 && w.x * w.x + w.z * w.z == move.SqrMagnitude() * (k * k)
  {
    var k := moveSpeed * speedMul;
    var fx, fz := forward.x, forward.z;
    var a := fz * move.x + fx * move.y;
    var b := -fx * move.x + fz * move.y;
    var w := Wish(right, forward, move, moveSpeed, speedMul);
    WishComponents(right, forward, move, moveSpeed, speedMul);
    RotationKeepsLength(fx, fz, move.x, move.y);
    ScaleSquares(w.x, w.z, a, b, k, move.x * move.x + move.y * move.y);
  }

  /** The wish in a level frame, component by component. */
  lemma WishComponents(right: Vec3, forward: Vec3, move: Vec2, moveSpeed: real, speedMul: real)
    requires LevelFrame(right, forward)
    ensures var w := Wish(right, forward, move, moveSpeed, speedMul);
            var k := moveSpeed * speedMul;
            w.x == (forward.z * move.x + forward.x * move.y) * k
            && w.z == (-forward.x * move.x + forward.z * move.y) * k
  {
  }

  /** Turning `(x, y)` by the unit `(fz, fx)` keeps its squared length. */
  lemma RotationKeepsLength(fx: real, fz: real, x: real, y: real)
    requires fx * fx + fz * fz == 1.0
    ensures var a, b := fz * x + fx * y, -fx * x + fz * y;
            a * a + b * b == x * x + y * y
  {
    var a, b := fz * x + fx * y, -fx * x + fz * y;
    var unit := fx * fx + fz * fz;
    assert a * a + b * b == (x * x + y * y) * unit;
  }

  /** Scaling both components by `k` scales the squared length by `k * k`. */
  lemma ScaleSquares(x: real, z: real, a: real, b: real, k: real, len: real)
    requires x == a * k && z == b * k && a * a + b * b == len
    ensures x * x + z * z == len * (k * k)
  {
    assert x * x == (a * a) * (k * k);
    assert z * z == (b * b) * (k * k);
  }

  datatype AnimBools = AnimBools(isRunning: bool, isWalking: bool)

  /** The per-step inputs: the step length, the ground-contact query's
      answer, the smoothed move vector and the body's axes. */
  datatype TickInput = TickInput(dt: real, groundHit: bool, moveSmooth: Vec2, right: Vec3, forward: Vec3)

  /** What one `FixedUpdate` produces: the new state and what it sends to
      the optional sinks (`None` where the sink is absent). */
  datatype TickOutput = TickOutput(
    controller: Controller,
    anim: Option<AnimBools>,
    triggers: seq<Sprint.Trigger>,
    vignette: Option<real>,
    vertRes: Option<int>)

  /** One `FixedUpdate`. The animation flags are computed before the
      stamina step and so describe the sprint state the step started in;
      the post-processing and the speed multiplier use the state after it. */
  function FixedTick(cfg: Config, sinks: Sinks, c: Controller, tin: TickInput): (out: TickOutput)
    ensures out.controller.grounded == tin.groundHit
    ensures out.controller.jumpPressed == c.jumpPressed
    ensures out.controller.velocity.y == c.velocity.y
    // the sprint state is the sprint machine's step of length dt
    ensures out.controller.sprint == Sprint.FixedStep(cfg.sprint, c.sprint, tin.dt).state
    // the animator sees running and walking exclusively, from the pre-step state
    ensures sinks.animator <==> out.anim.Some?
    ensures out.anim.Some? ==>
              !(out.anim.value.isRunning && out.anim.value.isWalking)
              && (out.anim.value.isRunning <==> c.sprint.isSprinting && tin.moveSmooth.SqrMagnitude() > MovingThreshold)
              && (out.anim.value.isRunning || out.anim.value.isWalking <==> tin.moveSmooth.SqrMagnitude() > MovingThreshold)
    // triggers reach the animator only when it exists
    ensures !sinks.animator ==> out.triggers == []
    ensures sinks.animator ==> out.triggers == Sprint.FixedStep(cfg.sprint, c.sprint, tin.dt).Triggers()
    ensures sinks.vignette <==> out.vignette.Some?
    ensures sinks.retro <==> out.vertRes.Some?
    // post-processing follows the stamina after the step
    ensures out.vignette.Some? ==>
              out.vignette.value == Feedback.Vignette(cfg.fx, cfg.sprint.staminaMax, out.controller.sprint.stamina)
    ensures out.vertRes.Some? ==>
              out.vertRes.value == Feedback.VerticalResolution(cfg.fx, cfg.sprint.staminaMax, out.controller.sprint.stamina)
    // the horizontal velocity follows the phase the step ends in
    ensures Sprint.Consistent(out.controller.sprint) ==>
              var mul := Sprint.PhaseMultiplier(cfg.sprint, Sprint.PhaseOf(out.controller.sprint));
              var w := Wish(tin.right, tin.forward, tin.moveSmooth, cfg.moveSpeed, mul);
              out.controller.velocity.x == w.x && out.controller.velocity.z == w.z
  {
    var moving := tin.moveSmooth.SqrMagnitude() > MovingThreshold;
    var anim := if sinks.animator
      then Some(AnimBools(c.sprint.isSprinting && moving, !c.sprint.isSprinting && moving))
      else None;
    var step := Sprint.FixedStep(cfg.sprint, c.sprint, tin.dt);
    var s := step.state;
    var vignette := if sinks.vignette then Some(Feedback.Vignette(cfg.fx, cfg.sprint.staminaMax, s.stamina)) else None;
    var vertRes := if sinks.retro then Some(Feedback.VerticalResolution(cfg.fx, cfg.sprint.staminaMax, s.stamina)) else None;
    var wish := Wish(tin.right, tin.forward, tin.moveSmooth, cfg.moveSpeed, Sprint.SpeedMultiplier(cfg.sprint, s));
    var c' := Controller(s, tin.groundHit, c.jumpPressed, WriteHorizontal(c.velocity, wish));
    TickOutput(c', anim, if sinks.animator then step.Triggers() else [], vignette, vertRes)
  }

  /** A jump request is honoured at most once: the frame after the one that
      consumed it changes nothing, whatever the launch speed. */
  lemma JumpHonouredOnce(cfg: Config, c: Controller, launch1: real, launch2: real)
    ensures Update(cfg, Update(cfg, c, launch1), launch2) == Update(cfg, c, launch1)
  {
  }

  /** A jump request made in the air is lost at the next frame: the request
      is not kept until landing. */
  lemma AirborneJumpIsDropped(cfg: Config, c: Controller, launch: real)
    requires !c.grounded
    ensures var r := Update(cfg, JumpPerformed(c), launch);
            !r.jumpPressed && r.velocity == c.velocity
  {
  }

  /** What reaches the controller between steps: the jump and sprint input
      callbacks, a rendered frame (`Update`, with the launch speed it
      computes) and a physics step (`FixedUpdate`). */
  datatype Input = JumpAction | SprintAction | SprintCancel | RenderFrame(launch: real) | PhysicsStep(sinks: Sinks, tin: TickInput)

  function React(cfg: Config, c: Controller, i: Input): Controller {
    match i
    case JumpAction => JumpPerformed(c)
    case SprintAction => c.(sprint := Sprint.Press(c.sprint))
    case SprintCancel => c.(sprint := Sprint.Release(c.sprint))
    case RenderFrame(launch) => Update(cfg, c, launch)
    case PhysicsStep(sinks, tin) => FixedTick(cfg, sinks, c, tin).controller
  }

  /** The controller after any interleaving of callbacks, frames and steps. */
  function Drive(cfg: Config, c: Controller, ins: seq<Input>): Controller
    decreases |ins|
  {
    if ins == [] then c else Drive(cfg, React(cfg, c, ins[0]), ins[1..])
  }

  /** Every physics step has a non-negative length. */
  ghost predicate WellTimed(ins: seq<Input>) {
    forall i :: 0 <= i < |ins| ==> (ins[i].PhysicsStep? ==> ins[i].tin.dt >= 0.0)
  }

  /** However callbacks, rendered frames and physics steps interleave, the
      sprint machine's invariant holds: stamina within `[0, staminaMax]`,
      no sprint while blocked, no sprint without the button held. */
  lemma {:induction false} DriveKeepsInv(cfg: Config, c: Controller, ins: seq<Input>)
    requires cfg.sprint.Valid() && WellTimed(ins) && Sprint.Inv(cfg.sprint, c.sprint)
    ensures Sprint.Inv(cfg.sprint, Drive(cfg, c, ins).sprint)
    decreases |ins|
  {
    if ins != [] {
      var c' := React(cfg, c, ins[0]);
      assert Sprint.Inv(cfg.sprint, c'.sprint) by {
        if ins[0].PhysicsStep? {
          assert ins[0].tin.dt >= 0.0;
        }
      }
      assert WellTimed(ins[1..]) by {
        forall i | 0 <= i < |ins[1..]| ensures ins[1..][i].PhysicsStep? ==> ins[1..][i].tin.dt >= 0.0 {
          assert ins[1..][i] == ins[i + 1];
        }
      }
      DriveKeepsInv(cfg, c', ins[1..]);
    }
  }
}

=== FILE: numeric.dfy ===
/** Real-number helpers shared by the engine-math models: `Mathf.Clamp01`
    and the bounds of an interpolation between two values. */
module Numeric {

  function Min(a: real, b: real): real { if a <= b then a else b }
  function Max(a: real, b: real): real { if a <= b then b else a }

  /** `Mathf.Clamp01`. */
  function Clamp01(x: real): (r: real)
    ensures 0.0 <= r <= 1.0
    ensures 0.0 <= x <= 1.0 ==> r == x
    ensures x <= 0.0 ==> r == 0.0
    ensures x >= 1.0 ==> r == 1.0
  {
    if x < 0.0 then 0.0 else if x > 1.0 then 1.0 else x
  }

  /** The product of two non-negative numbers is non-negative. */
  lemma MulNonneg(x: real, y: real)
    ensures x >= 0.0 && y >= 0.0 ==> x * y >= 0.0
  {
  }

  /** A fraction of a quantity lies between zero and the quantity. */
  lemma MulBetween(d: real, c: real)
    requires 0.0 <= c <= 1.0
    ensures d >= 0.0 ==> 0.0 <= d * c <= d
    ensures d <= 0.0 ==> d <= d * c <= 0.0
    ensures 0.0 <= d * c <= d || d <= d * c <= 0.0
  {
    assert d - d * c == d * (1.0 - c);
  }

  /** Adding a part of an offset lands between the start and the end. */
  lemma AddBetween(a: real, d: real, p: real)
    requires 0.0 <= p <= d || d <= p <= 0.0
    ensures Min(a, a + d) <= a + p <= Max(a, a + d)
  {
  }

  /** Adding a fraction `c` of an offset `d` lands between the start and
      the end. */
  lemma FractionBetween(a: real, d: real, c: real)
    requires 0.0 <= c <= 1.0
    ensures Min(a, a + d) <= a + d * c <= Max(a, a + d)
  {
    MulBetween(d, c);
    AddBetween(a, d, d * c);
  }

  /** Going a fraction `c` of the way from `a` to `b` stays between them.
      The offset is handed to a linear step as a whole, which keeps the
      solver away from non-linear reasoning. */
  lemma Between(a: real, b: real, c: real)
    requires 0.0 <= c <= 1.0
    ensures Min(a, b) <= a + (b - a) * c <= Max(a, b)
  {
    FractionBetween(a, b - a, c);
    assert a + (b - a) == b;
  }
}

=== FILE: options.dfy ===
/** The optional reference: Unity's nullable component and object references
    (`null` or a live object) are modelled as `Option`. */
module Options {

  datatype Option<+T> = None | Some(value: T)
}

=== FILE: scene.dfy ===
/** The player's interaction controller wired to one door: the ray under the
    crosshair hits the door's collider, the door's lock is what the
    controller reads as `cantInteract`, and a dispatched press calls the
    door's `Interact`. Used to show that the legacy door's missing guard is
    reachable from the controller, and that the current door's guard closes
    it. */
module Scene {
  import opened Options
  import Interaction
  import LegacyDoor

  /** What the ray reports when it hits the door. */
  function DoorHit(obj: Interaction.ObjectId, message: string, locked: bool, o: Option<Interaction.OutlineId>): Interaction.Hit {
    Interaction.Hit(obj, Some(Interaction.Interactable(obj, message)), locked, o)
  }

  datatype World = World(controller: Interaction.Controller, door: LegacyDoor.Door)

  /** One frame with the crosshair on the door and F pressed or not; the
      door's `Interact` runs when the controller dispatches to it. */
  function LookFrame(w: World, obj: Interaction.ObjectId, message: string, o: Option<Interaction.OutlineId>,
                     fPressed: bool, guarded: bool): (r: World)
    ensures r.door == w.door || r.door.cantInteract
    // no press, no call: the door is untouched
    ensures !fPressed ==> r.door == w.door
    // an unlocked door under the crosshair becomes the target and takes the press
    ensures fPressed && !w.door.cantInteract ==>
              r.door == (if guarded then LegacyDoor.GuardedInteract(w.door) else LegacyDoor.Interact(w.door))
    // a locked door is refused as a target, so the press reaches it only if
    // it was already the target
    ensures fPressed && w.door.cantInteract ==>
              r.door == (if w.controller.target.Some? && w.controller.target.value.id == obj
                         then (if guarded then LegacyDoor.GuardedInteract(w.door) else LegacyDoor.Interact(w.door))
                         else w.door)
  {
    var f := Interaction.Frame(w.controller, true, Some(DoorHit(obj, message, w.door.cantInteract, o)), fPressed);
    var d := if f.called == Some(obj)
      then (if guarded then LegacyDoor.GuardedInteract(w.door) else LegacyDoor.Interact(w.door))
      else w.door;
    World(f.controller, d)
  }

  /** Two presses on consecutive frames, both before the swing completes,
      then both completions: as written, the closed door ends half a turn
      round, reports itself closed and stays a trigger; with the guard it
      ends open by a quarter turn and settled. */
  lemma DoublePressOnLegacyDoor(obj: Interaction.ObjectId, message: string, o: Option<Interaction.OutlineId>)
    ensures var w0 := World(Interaction.Initial(), LegacyDoor.Initial(false, false));
            var asWritten := LookFrame(LookFrame(w0, obj, message, o, true, false), obj, message, o, true, false);
            var d := LegacyDoor.Complete(LegacyDoor.Complete(asWritten.door));
            d.yaw == 2 * LegacyDoor.OpenTurn && !d.isOpen && d.colliderTrigger && !LegacyDoor.Settled(d)
    ensures var w0 := World(Interaction.Initial(), LegacyDoor.Initial(false, false));
            var guarded := LookFrame(LookFrame(w0, obj, message, o, true, true), obj, message, o, true, true);
            var d := LegacyDoor.Complete(LegacyDoor.Complete(guarded.door));
            d.yaw == LegacyDoor.OpenTurn && d.isOpen && LegacyDoor.Settled(d)
  {
    var w0 := World(Interaction.Initial(), LegacyDoor.Initial(false, false));
    var w1 := LookFrame(w0, obj, message, o, true, false);
    assert w1.door.pending == [LegacyDoor.OpeningSwing] && w1.door.cantInteract;
    assert w1.controller.target == Some(Interaction.Interactable(obj, message));
    var w2 := LookFrame(w1, obj, message, o, true, false);
    assert w2.door.pending == [LegacyDoor.OpeningSwing, LegacyDoor.OpeningSwing];
    var d3 := LegacyDoor.Complete(w2.door);
    assert d3.pending == [LegacyDoor.OpeningSwing];
    assert LegacyDoor.Complete(d3).pending == [];

    var g1 := LookFrame(w0, obj, message, o, true, true);
    assert g1.door.pending == [LegacyDoor.OpeningSwing];
    var g2 := LookFrame(g1, obj, message, o, true, true);
    assert g2.door == g1.door;
    assert LegacyDoor.Complete(g2.door).pending == [];
  }
}

=== FILE: sprint.dfy ===
/** The stamina-gated sprint state machine of the first-person controller
    (`Movement` in Assets/Scripts/Movement.cs).

    The state is the four fields `stamina`, `isSprinting`, `sprintHeld` and
    `mustRelease`; it is driven by three events: the sprint button being
    pressed, the sprint button being released, and one fixed simulation step
    of length `dt`. A fixed step emits two animation triggers: `maxStam` when
    a sprint exhausts the stamina, and `exitMaxStam` when the stamina climbs
    back over the restart threshold and the block is lifted.

    Engine `float`s are modelled as `real`. */
module Sprint {
  import opened Numeric

  /** Tolerance on the restart threshold (`EPS`). */
  const EPS: real := 0.001

  /** The inspector-set tuning values the machine reads. */
  datatype Config = Config(
    staminaMax: real,
    staminaDrain: real,
    staminaRegen: real,
    sprintRestartPercent: real,
    sprintMultiplier: real,
    sprintSlowMultiplier: real)
  {
    /** Rates and capacity are non-negative: the assumption under which the
        stamina stays in range. */
    predicate Valid() {
      staminaMax >= 0.0 && staminaDrain >= 0.0 && staminaRegen >= 0.0
    }

    /** The stamina level at which a blocked sprint is unblocked. */
    function RestartStamina(): real {
      staminaMax * sprintRestartPercent
    }
  }

  datatype State = State(stamina: real, isSprinting: bool, sprintHeld: bool, mustRelease: bool)

  /** The three states of the machine: `mustRelease` is the Blocked state. */
  datatype Phase = Ready | Sprinting | Blocked

  /** The two animator triggers of the machine. */
  datatype Trigger = MaxStam | ExitMaxStam

  /** Result of one fixed step: the new state and the two edge triggers. */
  datatype StepResult = StepResult(state: State, maxStam: bool, exitMaxStam: bool) {
    /** The triggers in the order the step sets them. */
    function Triggers(): seq<Trigger> {
      (if maxStam then [MaxStam] else []) + (if exitMaxStam then [ExitMaxStam] else [])
    }
  }

  /** The state right after `Awake`: full stamina, nothing held, not blocked. */
  function Initial(cfg: Config): (s: State)
    ensures cfg.Valid() ==> Inv(cfg, s)
    ensures cfg.staminaMax > 0.0 ==> PhaseOf(s) == Ready && s.stamina > 0.0
    ensures s.stamina == cfg.staminaMax && !s.isSprinting && !s.sprintHeld && !s.mustRelease
  {
    State(cfg.staminaMax, false, false, false)
  }

  ghost predicate InRange(cfg: Config, s: State) {
    0.0 <= s.stamina <= cfg.staminaMax
  }

  /** Blocked implies not sprinting, and sprinting implies the button is held. */
  ghost predicate Consistent(s: State) {
    (s.mustRelease ==> !s.isSprinting) && (s.isSprinting ==> s.sprintHeld)
  }

  /** The invariant every reachable state keeps. */
  ghost predicate Inv(cfg: Config, s: State) {
    InRange(cfg, s) && Consistent(s)
  }

  function PhaseOf(s: State): Phase {
    if s.mustRelease then Blocked else if s.isSprinting then Sprinting else Ready
  }

  /** Upward crossing of the restart threshold (with tolerance) between two
      stamina readings. */
  predicate CrossedReadyUp(cfg: Config, prev: real, now: real) {
    prev < cfg.RestartStamina() - EPS && now >= cfg.RestartStamina() - EPS
  }

  /** The sprint action was performed (button pressed). */
  function Press(s: State): (r: State)
    ensures r.sprintHeld
    ensures r.stamina == s.stamina && r.mustRelease == s.mustRelease
    ensures Consistent(s) ==> (r.isSprinting <==> !s.mustRelease)
    ensures Consistent(s) ==> Consistent(r)
  {
    var s' := s.(sprintHeld := true);
    if !s.isSprinting && !s.mustRelease then s'.(isSprinting := true) else s'
  }

  /** The sprint action was cancelled (button released). The block is
      deliberately left in place: only the threshold lifts it. */
  function Release(s: State): (r: State)
    ensures !r.sprintHeld && !r.isSprinting
    ensures r.stamina == s.stamina && r.mustRelease == s.mustRelease
    ensures PhaseOf(r) != Sprinting
  {
    var s' := s.(sprintHeld := false);
    if s.isSprinting then s'.(isSprinting := false) else s'
  }

  /** The stamina part of `FixedUpdate`: drain while sprinting (exhaustion
      stops the sprint and blocks it until release and recovery), regenerate
      otherwise, then lift the block on an upward crossing of the restart
      threshold. */
  function FixedStep(cfg: Config, s: State, dt: real): (r: StepResult)
    // the machine's invariant is kept under non-negative rates and step
    ensures cfg.Valid() && dt >= 0.0 && Inv(cfg, s) ==> Inv(cfg, r.state)
    ensures r.state.sprintHeld == s.sprintHeld
    // a step never starts a sprint, in particular not when it lifts the block
    ensures r.state.isSprinting ==> s.isSprinting
    // exhaustion: pinned at zero, sprint stopped and blocked
    ensures s.isSprinting && s.stamina - cfg.staminaDrain * dt <= 0.0 ==>
              r.state.stamina == 0.0 && !r.state.isSprinting
    ensures s.isSprinting && s.stamina >= 0.0 && s.stamina - cfg.staminaDrain * dt <= 0.0 ==>
              r.state.mustRelease
    // maxStam fires exactly on the step that takes a positive stamina to zero
    ensures r.maxStam <==> s.isSprinting && s.stamina > 0.0 && s.stamina - cfg.staminaDrain * dt <= 0.0
    // exitMaxStam fires exactly on the step that lifts the block
    ensures s.stamina >= 0.0 ==> (r.exitMaxStam <==> s.mustRelease && !r.state.mustRelease)
    // the block is lifted exactly on an upward crossing of the restart threshold
    ensures Consistent(s) && s.mustRelease ==>
              (!r.state.mustRelease <==> CrossedReadyUp(cfg, s.stamina, r.state.stamina))
    // a step outside exhaustion never raises the block
    ensures r.state.mustRelease && !s.mustRelease ==> s.isSprinting && r.state.stamina == 0.0
    // a sprint that does not run out loses exactly drain * dt
    ensures s.isSprinting && s.stamina - cfg.staminaDrain * dt > 0.0 ==>
              r.state.stamina == s.stamina - cfg.staminaDrain * dt
    // ... and keeps running
    ensures s.isSprinting && s.stamina - cfg.staminaDrain * dt > 0.0 ==> r.state.isSprinting
    // otherwise stamina regenerates by regen * dt, capped at the capacity,
    // whatever side of the restart threshold it is on
    ensures !s.isSprinting ==> r.state.stamina == Min(s.stamina + cfg.staminaRegen * dt, cfg.staminaMax)
  {
    MulNonneg(cfg.staminaDrain, dt);
    MulNonneg(cfg.staminaRegen, dt);
    var prev := s.stamina;
    var (drained, maxStam) :=
      if s.isSprinting then
        var st := prev - cfg.staminaDrain * dt;
        if st <= 0.0 then (s.(stamina := 0.0, isSprinting := false, mustRelease := true), prev > 0.0)
        else (s.(stamina := st), false)
      else
        var st := prev + cfg.staminaRegen * dt;
        (s.(stamina := if st > cfg.staminaMax then cfg.staminaMax else st), false);
    if drained.mustRelease && CrossedReadyUp(cfg, prev, drained.stamina) then
      StepResult(drained.(mustRelease := false), maxStam, true)
    else
      StepResult(drained, maxStam, false)
  }

  /** With a restart threshold at or below the tolerance (a restart percent
      of 0 is within the inspector's range), a blocked sprint is never
      unblocked again: no reading at or above zero lies below `R - EPS`. */
  lemma BlockedForeverBelowTolerance(cfg: Config, s: State, dt: real)
    requires cfg.RestartStamina() <= EPS
    requires s.stamina >= 0.0 && s.mustRelease
    ensures FixedStep(cfg, s, dt).state.mustRelease && !FixedStep(cfg, s, dt).exitMaxStam
  {
  }

  /** The speed multiplier the velocity write uses: `sprintMultiplier` while
      sprinting, `sprintSlowMultiplier` while blocked, `1` otherwise. */
  function SpeedMultiplier(cfg: Config, s: State): (m: real)
    ensures Consistent(s) ==> m == PhaseMultiplier(cfg, PhaseOf(s))
  {
    var baseMul := if s.mustRelease then cfg.sprintSlowMultiplier else 1.0;
    if s.isSprinting then cfg.sprintMultiplier else baseMul
  }

  /** The multiplier of each phase: fast while sprinting, slow while
      blocked, unchanged when ready. */
  function PhaseMultiplier(cfg: Config, p: Phase): real {
    match p
    case Sprinting => cfg.sprintMultiplier
    case Blocked => cfg.sprintSlowMultiplier
    case Ready => 1.0
  }
}

=== FILE: sprint_runs.dfy ===
/** The sprint machine driven by arbitrary sequences of input events and
    fixed steps, with a clock so that every emitted trigger carries the time
    of the step that fired it. */
module SprintRuns {
  import opened Sprint

  datatype Event = SprintPressed | SprintReleased | Tick(dt: real)

  datatype Emission = Emission(trigger: Trigger, time: real)

  /** The state, clock and triggers after a run of events. */
  datatype Trace = Trace(state: State, time: real, emitted: seq<Emission>)

  /** Every fixed step in the run has a non-negative length. */
  ghost predicate WellTimed(evs: seq<Event>) {
    forall i :: 0 <= i < |evs| ==> (evs[i].Tick? ==> evs[i].dt >= 0.0)
  }

  /** `n` fixed steps of length `dt`. */
  function Ticks(n: nat, dt: real): (evs: seq<Event>)
    ensures |evs| == n
    ensures forall i :: 0 <= i < n ==> evs[i] == Tick(dt)
  {
    seq(n, _ => Tick(dt))
  }

  lemma TicksAppend(m: nat, n: nat, dt: real)
    ensures Ticks(m, dt) + Ticks(n, dt) == Ticks(m + n, dt)
  {
    assert forall i :: 0 <= i < m + n ==> (Ticks(m, dt) + Ticks(n, dt))[i] == Tick(dt);
  }

  /** The triggers one step sends to the camera animator, stamped with the
      time at the end of the step. */
  function StepEmissions(r: StepResult, t: real): seq<Emission> {
    Stamped(r.Triggers(), t)
  }

  /** Each trigger of `trs`, in order, stamped with the time `t`. */
  function Stamped(trs: seq<Trigger>, t: real): (e: seq<Emission>)
    ensures |e| == |trs|
    ensures forall i :: 0 <= i < |trs| ==> e[i] == Emission(trs[i], t)
  {
    if trs == [] then [] else [Emission(trs[0], t)] + Stamped(trs[1..], t)
  }

  /** One event: an input event changes the flags, a fixed step also
      advances the clock and may emit triggers. */
  function Apply(cfg: Config, s: State, time: real, e: Event): Trace {
    match e
    case SprintPressed => Trace(Press(s), time, [])
    case SprintReleased => Trace(Release(s), time, [])
    case Tick(dt) =>
      var r := FixedStep(cfg, s, dt);
      Trace(r.state, time + dt, StepEmissions(r, time + dt))
  }

  function Run(cfg: Config, s: State, time: real, evs: seq<Event>): Trace
    decreases |evs|
  {
    if evs == [] then Trace(s, time, [])
    else
      var first := Apply(cfg, s, time, evs[0]);
      var rest := Run(cfg, first.state, first.time, evs[1..]);
      Trace(rest.state, rest.time, first.emitted + rest.emitted)
  }

  /** A run of `[e] + rest` is the event `e` followed by the run of `rest`. */
  lemma RunCons(cfg: Config, s: State, time: real, e: Event, rest: seq<Event>)
    ensures var first := Apply(cfg, s, time, e);
            var r := Run(cfg, first.state, first.time, rest);
            Run(cfg, s, time, [e] + rest) == Trace(r.state, r.time, first.emitted + r.emitted)
  {
    assert ([e] + rest)[0] == e && ([e] + rest)[1..] == rest;
  }

  /** A run of one fixed step is that step. */
  lemma RunOneTick(cfg: Config, s: State, time: real, dt: real)
    ensures var r := FixedStep(cfg, s, dt);
            Run(cfg, s, time, Ticks(1, dt)) == Trace(r.state, time + dt, StepEmissions(r, time + dt))
  {
    assert Ticks(1, dt) == [Tick(dt)] + [];
    RunCons(cfg, s, time, Tick(dt), []);
    var r := FixedStep(cfg, s, dt);
    assert StepEmissions(r, time + dt) + [] == StepEmissions(r, time + dt);
  }

  /** Running `a` then `b` is running `a + b`. */
  lemma {:induction false} RunAppend(cfg: Config, s: State, time: real, a: seq<Event>, b: seq<Event>)
    ensures var ra := Run(cfg, s, time, a);
            var rb := Run(cfg, ra.state, ra.time, b);
            Run(cfg, s, time, a + b) == Trace(rb.state, rb.time, ra.emitted + rb.emitted)
    decreases |a|
  {
    if a == [] {
      assert a + b == b;
    } else {
      var e, rest := a[0], a[1..];
      var first := Apply(cfg, s, time, e);
      var ra := Run(cfg, first.state, first.time, rest);
      var rb := Run(cfg, ra.state, ra.time, b);
      assert Run(cfg, s, time, a) == Trace(ra.state, ra.time, first.emitted + ra.emitted) by {
        assert a == [e] + rest;
        RunCons(cfg, s, time, e, rest);
      }
      assert Run(cfg, s, time, a + b) == Trace(rb.state, rb.time, first.emitted + (ra.emitted + rb.emitted)) by {
        assert a + b == [e] + (rest + b) by {
          assert a == [e] + rest;
        }
        RunAppend(cfg, first.state, first.time, rest, b);
        RunCons(cfg, s, time, e, rest + b);
      }
      assert first.emitted + (ra.emitted + rb.emitted) == (first.emitted + ra.emitted) + rb.emitted;
    }
  }

  /** The machine's invariant holds after any run of well-timed events. */
  lemma {:induction false} RunKeepsInvariant(cfg: Config, s: State, time: real, evs: seq<Event>)
    requires cfg.Valid() && WellTimed(evs) && Inv(cfg, s)
    ensures Inv(cfg, Run(cfg, s, time, evs).state)
    decreases |evs|
  {
    if evs != [] {
      assert WellTimed(evs[1..]) by {
        forall i | 0 <= i < |evs[1..]| ensures evs[1..][i].Tick? ==> evs[1..][i].dt >= 0.0 {
          assert evs[1..][i] == evs[i + 1];
        }
      }
      match evs[0]
      case SprintPressed => RunKeepsInvariant(cfg, Press(s), time, evs[1..]);
      case SprintReleased => RunKeepsInvariant(cfg, Release(s), time, evs[1..]);
      case Tick(dt) =>
        assert dt >= 0.0 by { assert evs[0].Tick?; }
        RunKeepsInvariant(cfg, FixedStep(cfg, s, dt).state, time + dt, evs[1..]);
    }
  }

  /** From the state `Awake` leaves, the stamina stays within
      `[0, staminaMax]` and a blocked sprint never runs, whatever the
      sequence of presses, releases and non-negative steps. */
  lemma StaminaStaysInRange(cfg: Config, evs: seq<Event>)
    requires cfg.Valid() && WellTimed(evs)
    ensures var t := Run(cfg, Initial(cfg), 0.0, evs);
            0.0 <= t.state.stamina <= cfg.staminaMax
            && (t.state.mustRelease ==> !t.state.isSprinting)
  {
    RunKeepsInvariant(cfg, Initial(cfg), 0.0, evs);
  }

  /** A state from which every block is announced: outside the Blocked
      phase some stamina is left, so the exhausting step starts above zero. */
  ghost predicate Announced(cfg: Config, s: State) {
    Inv(cfg, s) && (!s.mustRelease ==> s.stamina > 0.0)
  }

  /** Configurations in which exhaustion and recovery are both possible:
      positive capacity and a restart threshold above the tolerance. */
  ghost predicate Recoverable(cfg: Config) {
    cfg.Valid() && cfg.staminaMax > 0.0 && cfg.RestartStamina() > EPS
  }

  lemma StepKeepsAnnounced(cfg: Config, s: State, dt: real)
    requires cfg.Valid() && dt >= 0.0 && Announced(cfg, s)
    ensures Announced(cfg, FixedStep(cfg, s, dt).state)
  {
  }

  /** The triggers of a run alternate, `maxStam` first when the run starts
      unblocked: each fires on exactly one edge, `maxStam` on entering the
      Blocked phase and `exitMaxStam` on leaving it. */
  ghost predicate Alternating(es: seq<Emission>, blocked: bool)
    decreases |es|
  {
    es == [] ||
    (es[0].trigger == (if blocked then ExitMaxStam else MaxStam) && Alternating(es[1..], !blocked))
  }

  /** One event from an announced state: it stays announced, and it either
      emits nothing and keeps the phase's block flag, or emits the one
      trigger that matches flipping the flag. */
  lemma ApplyEdges(cfg: Config, s: State, time: real, e: Event)
    requires cfg.Valid() && (e.Tick? ==> e.dt >= 0.0) && Announced(cfg, s)
    ensures var t := Apply(cfg, s, time, e);
            Announced(cfg, t.state)
            && ((t.emitted == [] && t.state.mustRelease == s.mustRelease)
                || (|t.emitted| == 1 && t.emitted[0].trigger == (if s.mustRelease then ExitMaxStam else MaxStam)
                    && t.state.mustRelease == !s.mustRelease))
  {
    if e.Tick? {
      StepKeepsAnnounced(cfg, s, e.dt);
    }
  }

  /** Putting the triggers of one event in front of an alternating
      sequence: none, with the flag kept, or the one trigger that flips it. */
  lemma AlternatingCons(e: seq<Emission>, rest: seq<Emission>, blocked: bool, mid: bool, final: bool)
    requires (e == [] && mid == blocked)
             || (|e| == 1 && e[0].trigger == (if blocked then ExitMaxStam else MaxStam) && mid == !blocked)
    requires Alternating(rest, mid) && (final <==> (mid != (|rest| % 2 == 1)))
    ensures Alternating(e + rest, blocked) && (final <==> (blocked != (|e + rest| % 2 == 1)))
  {
    if e != [] {
      assert (e + rest)[0] == e[0];
      assert (e + rest)[1..] == rest;
    } else {
      assert e + rest == rest;
    }
  }

  lemma {:induction false} RunTriggersAlternate(cfg: Config, s: State, time: real, evs: seq<Event>)
    requires cfg.Valid() && WellTimed(evs) && Announced(cfg, s)
    ensures var t := Run(cfg, s, time, evs);
            Alternating(t.emitted, s.mustRelease)
            && (t.state.mustRelease <==> (s.mustRelease != (|t.emitted| % 2 == 1)))
    decreases |evs|
  {
    if evs != [] {
      assert WellTimed(evs[1..]) by {
        forall i | 0 <= i < |evs[1..]| ensures evs[1..][i].Tick? ==> evs[1..][i].dt >= 0.0 {
          assert evs[1..][i] == evs[i + 1];
        }
      }
      assert evs[0].Tick? ==> evs[0].dt >= 0.0;
      var first := Apply(cfg, s, time, evs[0]);
      ApplyEdges(cfg, s, time, evs[0]);
      RunTriggersAlternate(cfg, first.state, first.time, evs[1..]);
      var rest := Run(cfg, first.state, first.time, evs[1..]);
      AlternatingCons(first.emitted, rest.emitted, s.mustRelease, first.state.mustRelease, rest.state.mustRelease);
    }
  }

  /** A step of a sprint that does not run out. */
  lemma DrainStep(cfg: Config, s: State, dt: real)
    requires s.isSprinting && !s.mustRelease && s.stamina - cfg.staminaDrain * dt > 0.0
    ensures FixedStep(cfg, s, dt) == StepResult(s.(stamina := s.stamina - cfg.staminaDrain * dt), false, false)
  {
  }

  /** A step of regeneration that stays below the capacity and the restart
      threshold. */
  lemma RegenStep(cfg: Config, s: State, dt: real)
    requires !s.isSprinting && s.stamina + cfg.staminaRegen * dt <= cfg.staminaMax
    requires s.stamina + cfg.staminaRegen * dt < cfg.RestartStamina() - EPS
    ensures FixedStep(cfg, s, dt) == StepResult(s.(stamina := s.stamina + cfg.staminaRegen * dt), false, false)
  {
  }

  /** `n` copies of `x` added up: the change of a quantity over `n` equal
      steps, kept free of multiplication so that the step lemmas below stay
      linear. */
  function Times(n: nat, x: real): (r: real)
    ensures x >= 0.0 ==> r >= 0.0
  {
    if n == 0 then 0.0 else Times(n - 1, x) + x
  }

  /** `n` steps of a sprint that does not run out: the stamina drops by
      `n` times `drain * dt` and nothing is emitted. */
  lemma {:induction false} DrainTicks(cfg: Config, s: State, time: real, n: nat, dt: real)
    requires s.isSprinting && !s.mustRelease && dt >= 0.0 && cfg.staminaDrain * dt >= 0.0
    requires s.stamina - Times(n, cfg.staminaDrain * dt) > 0.0
    ensures Run(cfg, s, time, Ticks(n, dt))
            == Trace(s.(stamina := s.stamina - Times(n, cfg.staminaDrain * dt)), time + Times(n, dt), [])
    decreases n
  {
    var d := cfg.staminaDrain * dt;
    if n > 0 {
      var s' := s.(stamina := s.stamina - d);
      assert Times(n, d) == Times(n - 1, d) + d;
      assert Times(n, dt) == Times(n - 1, dt) + dt;
      DrainStep(cfg, s, dt);
      var evs := Ticks(n, dt);
      assert evs[0] == Tick(dt);
      assert evs[1..] == Ticks(n - 1, dt);
      assert Apply(cfg, s, time, evs[0]) == Trace(s', time + dt, []);
      DrainTicks(cfg, s', time + dt, n - 1, dt);
      assert Run(cfg, s, time, evs) == Run(cfg, s', time + dt, Ticks(n - 1, dt));
    } else {
      assert Ticks(n, dt) == [];
    }
  }

  /** `n` steps of regeneration that stay below both the capacity and the
      restart threshold: the stamina rises by `n` times `regen * dt`, the
      flags stay, nothing is emitted. */
  lemma {:induction false} RegenTicks(cfg: Config, s: State, time: real, n: nat, dt: real)
    requires !s.isSprinting && dt >= 0.0 && cfg.staminaRegen * dt >= 0.0
    requires s.stamina + Times(n, cfg.staminaRegen * dt) <= cfg.staminaMax
    requires s.stamina + Times(n, cfg.staminaRegen * dt) < cfg.RestartStamina() - EPS
    ensures Run(cfg, s, time, Ticks(n, dt))
            == Trace(s.(stamina := s.stamina + Times(n, cfg.staminaRegen * dt)), time + Times(n, dt), [])
    decreases n
  {
    var d := cfg.staminaRegen * dt;
    if n > 0 {
      var s' := s.(stamina := s.stamina + d);
      assert Times(n, d) == Times(n - 1, d) + d;
      assert Times(n, dt) == Times(n - 1, dt) + dt;
      RegenStep(cfg, s, dt);
      var evs := Ticks(n, dt);
      assert evs[0] == Tick(dt);
      assert evs[1..] == Ticks(n - 1, dt);
      assert Apply(cfg, s, time, evs[0]) == Trace(s', time + dt, []);
      RegenTicks(cfg, s', time + dt, n - 1, dt);
      assert Run(cfg, s, time, evs) == Run(cfg, s', time + dt, Ticks(n - 1, dt));
    } else {
      assert Ticks(n, dt) == [];
    }
  }

  /** The inspector defaults: capacity 5, drain and regeneration 1 per
      second, restart at 50 %, sprint x1.5, blocked x0.5. */
  function DefaultConfig(): (cfg: Config)
    ensures Recoverable(cfg)
  {
    Config(5.0, 1.0, 1.0, 0.5, 1.5, 0.5)
  }

  /** The first nine half-second steps of a sprint from full stamina. */
  lemma ScenarioDrain(cfg: Config)
    requires cfg == DefaultConfig()
    ensures Run(cfg, State(5.0, true, true, false), 0.0, Ticks(9, 0.5)) == Trace(State(0.5, true, true, false), 4.5, [])
  {
    assert Times(9, 0.5) == 4.5;
    DrainTicks(cfg, State(5.0, true, true, false), 0.0, 9, 0.5);
  }

  /** The tenth step runs the stamina out. */
  lemma ScenarioEmpty(cfg: Config)
    requires cfg == DefaultConfig()
    ensures Run(cfg, State(0.5, true, true, false), 4.5, Ticks(1, 0.5))
            == Trace(State(0.0, false, true, true), 5.0, [Emission(MaxStam, 5.0)])
  {
    assert FixedStep(cfg, State(0.5, true, true, false), 0.5) == StepResult(State(0.0, false, true, true), true, false);
    RunOneTick(cfg, State(0.5, true, true, false), 4.5, 0.5);
  }

  /** Ten half-second steps of a sprint from full stamina: exhausted at 5 s. */
  lemma ScenarioExhaust(cfg: Config, evs: seq<Event>)
    requires cfg == DefaultConfig() && evs == Ticks(10, 0.5)
    ensures Run(cfg, State(5.0, true, true, false), 0.0, evs)
            == Trace(State(0.0, false, true, true), 5.0, [Emission(MaxStam, 5.0)])
  {
    ScenarioDrain(cfg);
    ScenarioEmpty(cfg);
    RunAppend(cfg, State(5.0, true, true, false), 0.0, Ticks(9, 0.5), Ticks(1, 0.5));
    TicksAppend(9, 1, 0.5);
  }

  /** The first four half-second steps of regeneration while blocked. */
  lemma ScenarioRegen(cfg: Config)
    requires cfg == DefaultConfig()
    ensures Run(cfg, State(0.0, false, true, true), 5.0, Ticks(4, 0.5)) == Trace(State(2.0, false, true, true), 7.0, [])
  {
    assert Times(4, 0.5) == 2.0;
    RegenTicks(cfg, State(0.0, false, true, true), 5.0, 4, 0.5);
  }

  /** The fifth step reaches the restart threshold and lifts the block. */
  lemma ScenarioUnblock(cfg: Config)
    requires cfg == DefaultConfig()
    ensures Run(cfg, State(2.0, false, true, true), 7.0, Ticks(1, 0.5))
            == Trace(State(2.5, false, true, false), 7.5, [Emission(ExitMaxStam, 7.5)])
  {
    assert FixedStep(cfg, State(2.0, false, true, true), 0.5) == StepResult(State(2.5, false, true, false), false, true);
    RunOneTick(cfg, State(2.0, false, true, true), 7.0, 0.5);
  }

  /** Five half-second steps of regeneration from empty while blocked: the
      block is lifted at the fifth, when the stamina reaches 2.5. */
  lemma ScenarioRecover(cfg: Config, evs: seq<Event>)
    requires cfg == DefaultConfig() && evs == Ticks(5, 0.5)
    ensures Run(cfg, State(0.0, false, true, true), 5.0, evs)
            == Trace(State(2.5, false, true, false), 7.5, [Emission(ExitMaxStam, 7.5)])
  {
    ScenarioRegen(cfg);
    ScenarioUnblock(cfg);
    RunAppend(cfg, State(0.0, false, true, true), 5.0, Ticks(4, 0.5), Ticks(1, 0.5));
    TicksAppend(4, 1, 0.5);
  }

  /** Fifteen half-second steps of a sprint from full stamina: out at 5 s,
      unblocked at 7.5 s, and not sprinting again. */
  lemma ScenarioHold(cfg: Config, evs: seq<Event>)
    requires cfg == DefaultConfig() && evs == Ticks(15, 0.5)
    ensures Run(cfg, State(5.0, true, true, false), 0.0, evs)
            == Trace(State(2.5, false, true, false), 7.5, [Emission(MaxStam, 5.0), Emission(ExitMaxStam, 7.5)])
  {
    ScenarioExhaust(cfg, Ticks(10, 0.5));
    ScenarioRecover(cfg, Ticks(5, 0.5));
    RunAppend(cfg, State(5.0, true, true, false), 0.0, Ticks(10, 0.5), Ticks(5, 0.5));
    TicksAppend(10, 5, 0.5);
  }

  /** With the defaults and fixed steps of 0.5 s, holding sprint from the
      start: the stamina runs out at t = 5 s (`maxStam`), the sprint is
      blocked, and regeneration alone lifts the block at t = 7.5 s
      (`exitMaxStam`) with the stamina at 2.5. Although the button is still
      held, the sprint does not resume: a fresh press is needed. */
  lemma ExhaustAndRecoverScenario(cfg: Config, evs: seq<Event>)
    requires cfg == DefaultConfig() && evs == [SprintPressed] + Ticks(15, 0.5)
    ensures var t := Run(cfg, Initial(cfg), 0.0, evs);
            t.emitted == [Emission(MaxStam, 5.0), Emission(ExitMaxStam, 7.5)]
            && t.state == State(2.5, false, true, false)
            && t.time == 7.5
  {
    var s1 := State(5.0, true, true, false);
    var ticks := evs[1..];
    assert evs == [SprintPressed] + ticks;
    ScenarioHold(cfg, ticks);
    assert Apply(cfg, Initial(cfg), 0.0, SprintPressed) == Trace(s1, 0.0, []);
    RunCons(cfg, Initial(cfg), 0.0, SprintPressed, ticks);
    var r := Run(cfg, s1, 0.0, ticks);
    assert [] + r.emitted == r.emitted;
  }
}
